=== FILE: README.md ===
# QuizzorAI client stores and dashboard aggregation, in Dafny

This project models the part of the QuizzorAI mobile client that has logic of
its own. The rest of the client is UI, or wiring to the authentication and
database SDK. The modelled part is:

- **The topic and quiz caches.** Each keeps, per parent id (a subject for
  topics, a topic for quizzes), a list of items, and a cached total across
  all lists. Every single-key write (`setTopics`, `addTopic`, `updateTopic`,
  `removeTopic` and their quiz counterparts) rewrites only its own key and
  recounts the total. The writes differ in what they do to the list:
  - `setTopics` and `setQuizzes` keep the first item per `id`, then sort by
    `name` or `title`;
  - `addTopic` and `addQuiz` drop the items carrying the new id, put the new
    item in front, and sort;
  - `updateTopic`, `updateQuiz` and `removeTopic` merge or soft-delete and
    filter, then sort; they dedupe nothing, but keep ids distinct when they
    already were;
  - `removeQuiz` only soft-deletes and filters, without sorting again.

  The other writes replace the whole map: `clearTopics` and `clearQuizzes`
  empty it, and `setAllTopics` builds it afresh from its input, keeping the
  first item per `id` in every list and sorting it.
- **The subject list.** This is one flat list. `addSubject` prepends,
  `updateSubject` merges in place, and `removeSubject` soft-deletes and then
  filters. There is no dedupe and no sort, and order is kept.
- **The dashboard stats holder.** `setStats` takes a plain value or an
  updater function. `resetStats` restores the initial stats.
- **The dashboard query.** This is the post-fetch part of the query function
  of `useDashboardQuizzes`. It drops attempts whose quiz is missing or
  deleted, averages the truthy scores, computes a completion percentage, and
  keeps the five most recent attempts.

Layout, one module per file:

- `Values`: `Option` (a nullable value), `Field` (an optional property, present or absent), and `Overlay`, one property of an object spread.
- `Collation`: the string order used for sorting, with totality, transitivity and antisymmetry.
- `Seqs`: `filter`, `map`, and the order-preserving subsequence relation.
- `Normalisation`: the first-occurrence id filter (`findIndex(...) === index`), the stable sort, and their properties.
- `Keyed`: lookup with `|| []`, and the total `Object.values(m).flat().length`.
- `TopicsStore`, `QuizzesStore`, `SubjectsStore`, `DashboardStore`: the four stores.
- `DashboardQuery`: the dashboard aggregation.

The topic and quiz caches carry a validity invariant, `Valid`. It has two
parts:
- the cached total equals the sum of the list lengths;
- every list is sorted with distinct ids.

Every single-key write is shown to keep `Valid`, to change no key but its
own, and to recount the total. The whole-map writes are shown to produce a
valid store whatever the old state. Each list-level operation, such as `WithTopicAdded`, is
characterised independently of its definition: its multiset of items, which
items survive, sortedness, id distinctness, and order preservation where the
code keeps order.

The completion rate is a real percentage (0 to 100) whenever attempts do not
outnumber live quizzes (`CompletionRateIsPercentage`). The converse does not
hold: a small excess still rounds to 100, as 1001 attempts on 1000 quizzes do
(`SmallExcessRoundsTo100`). The code counts every live attempt row, not
distinct quizzes, so repeated attempts can push the rate past 100. The model keeps that behaviour as written.

## Model

| member | source | states |
|---|---|---|
| `Collation.LessEqTotal` | src/stores/topicsStore.ts:28-29 | any two names are comparable in the sort order |
| `Collation.LessEqTransitive` | src/stores/topicsStore.ts:28-29 | the sort order is transitive |
| `Collation.LessEqAntisymmetric` | src/stores/topicsStore.ts:28-29 | names that sort no later than each other are equal |
| `Seqs.FilterSubseq` | src/stores/subjectsStore.ts:42 | what `filter` keeps stays in its original order |
| `Seqs.FilterAfterMap` | src/stores/subjectsStore.ts:36-42 | marking one id deleted and then dropping deleted items equals one filter by "other id and not deleted" |
| `Seqs.FilterTwice` | src/stores/subjectsStore.ts:42-44 | filtering again by a weaker condition changes nothing |
| `Seqs.Filter` | src/stores/subjectsStore.ts:42 | `filter` never lengthens the list, keeps only items that pass, and keeps each passing value as often as the input holds it |
| `Seqs.MapSeq` | src/stores/subjectsStore.ts:30-32 | `map` keeps the length and applies the function at every index |
| `Normalisation.FindIndex` | src/stores/topicsStore.ts:46 | `findIndex` gives the first index with the id, or -1 exactly when no item has it |
| `Normalisation.KeepFirsts` | src/stores/topicsStore.ts:45-47 | the id filter keeps exactly the first item of each id, and the kept ids are distinct |
| `Normalisation.Dedupe` | src/stores/topicsStore.ts:45-47 | the kept ids are distinct; every kept item is the first occurrence of its id, and every first occurrence is kept |
| `Normalisation.KeepFirstsOfDistinct` | src/stores/topicsStore.ts:45-47 | a list whose ids are already distinct passes the id filter whole |
| `Normalisation.FindIndexOfFirst` | src/stores/topicsStore.ts:46 | `findIndex(id) === index` holds exactly for the first item carrying that id |
| `Normalisation.SortBy` | src/stores/topicsStore.ts:28-29 | the sort returns a list of the same length with the same multiset of items |
| `Normalisation.SortBySorted` | src/stores/topicsStore.ts:28-29 | the stable insertion sort yields a list sorted by the key |
| `Normalisation.SortByProjection` | src/stores/topicsStore.ts:28-29 | sorting keeps the multiset of ids (of any projection) |
| `Normalisation.SortByDistinct` | src/stores/topicsStore.ts:28-29 | sorting keeps ids distinct |
| `Normalisation.SortByOfSorted` | src/stores/topicsStore.ts:28-29 | sorting a sorted list changes nothing |
| `Normalisation.FilterKeepsSorted` | src/stores/quizzesStore.ts:79-85 | filtering a sorted list leaves it sorted |
| `Normalisation.FilterKeepsDistinct` | src/stores/topicsStore.ts:82 | filtering keeps ids distinct |
| `Normalisation.Normalise` | src/stores/topicsStore.ts:44-48 | the stored list is sorted and id-distinct; each item is the first occurrence of its id in the input, and every first occurrence is kept |
| `Normalisation.NormaliseIdempotent` | src/stores/topicsStore.ts:44-48 | normalising a normalised list changes nothing |
| `Keyed.Lookup` | src/stores/topicsStore.ts:94 | `m[k]` with an empty-list fallback: the stored list for a present key, the empty list for a missing one, for keys that are not inherited object property names |
| `Keyed.SumLengthsPut` | src/stores/topicsStore.ts:84-87 | rewriting one key changes the total by the new length minus the old |
| `Keyed.FlatLength` | src/stores/topicsStore.ts:52 | `Object.values(m).flat().length` is the sum of the list lengths |
| `Keyed.Put` | src/stores/topicsStore.ts:42-53 | `{ ...m, [k]: v }` sets key `k` to `v`, keeps every other key, and returns the recounted total |
| `TopicsStore.SortByName` | src/stores/topicsStore.ts:28-29 | `sortByName` returns a permutation of its input, sorted by name |
| `TopicsStore.Merge` | src/stores/topicsStore.ts:96 | `{ ...old, ...patch }`: the required properties come from the patch; each optional one from the patch when present there, otherwise from the old item |
| `TopicsStore.MergeComplete` | src/stores/topicsStore.ts:96 | a patch that carries every property replaces the old item whole |
| `TopicsStore.MergeIdempotent` | src/stores/topicsStore.ts:96 | spreading the same patch twice is spreading it once |
| `TopicsStore.MarkDeleted` | src/stores/topicsStore.ts:113 | the soft delete sets `is_deleted` and stamps `deleted_at` with the given time, and changes no other property |
| `TopicsStore.WithTopicAdded` | src/stores/topicsStore.ts:79-83 | upsert: `topic` appears exactly once and is the only item with its id; every other item keeps its multiplicity; the list is sorted; distinct ids stay distinct |
| `TopicsStore.WithTopicUpdated` | src/stores/topicsStore.ts:94-97 | length and multiset of ids kept; items with another id kept; each matching item is `{...old, ...topic}` of an old one; with no match the list is only re-sorted |
| `TopicsStore.WithTopicRemoved` | src/stores/topicsStore.ts:108-117 | sorted; keeps exactly the items with another id that are not deleted, with their multiplicities |
| `TopicsStore.RemovedIgnoresClock` | src/stores/topicsStore.ts:113 | the deletion time stamped on the removed topic never reaches the cache |
| `TopicsStore.UpdateWithoutMatchIsIdentity` | src/stores/topicsStore.ts:94-97 | in a valid store, an update that matches no cached id leaves the list unchanged |
| `TopicsStore.NormaliseCachedList` | src/stores/topicsStore.ts:40-55 | storing again a list the store holds changes nothing |
| `TopicsStore.RewriteKeepsValid` | src/stores/topicsStore.ts:42-53 | rewriting one key with a normalised list and recounting keeps the store valid |
| `TopicsStore.ClearTopics` | src/stores/topicsStore.ts:37 | empty map, total 0, valid; every lookup is empty |
| `TopicsStore.TopicsBySubject` | src/stores/topicsStore.ts:126 | an absent key gives the empty list; a present key gives its list, normalised in a valid store |
| `TopicsStore.SetTopics` | src/stores/topicsStore.ts:40-55 | the subject's list is the normalised input; other keys unchanged; total recounted; validity kept |
| `TopicsStore.SetAllTopics` | src/stores/topicsStore.ts:58-75 | exactly the input's keys, each list normalised from its input; total recounted; the result is valid whatever the old state |
| `TopicsStore.AddTopic` | src/stores/topicsStore.ts:77-90 | the subject's list becomes the upserted list; other keys unchanged; total recounted; validity kept |
| `TopicsStore.UpdateTopic` | src/stores/topicsStore.ts:92-104 | the subject's list becomes the merged, re-sorted list; other keys unchanged; total recounted; validity kept |
| `TopicsStore.RemoveTopic` | src/stores/topicsStore.ts:106-124 | the subject's list loses the topic and every deleted topic; other keys unchanged; total recounted; validity kept |
| `QuizzesStore.SortByTitle` | src/stores/quizzesStore.ts:28-29 | `sortByTitle` returns a permutation of its input, sorted by title |
| `QuizzesStore.Merge` | src/stores/quizzesStore.ts:70 | `{ ...old, ...patch }`: the required properties come from the patch; each optional one from the patch when present there, otherwise from the old item |
| `QuizzesStore.MergeComplete` | src/stores/quizzesStore.ts:70 | a patch that carries every property replaces the old item whole |
| `QuizzesStore.MergeIdempotent` | src/stores/quizzesStore.ts:70 | spreading the same patch twice is spreading it once |
| `QuizzesStore.MarkDeleted` | src/stores/quizzesStore.ts:82 | the soft delete sets `is_deleted` and stamps `deleted_at` with the given time, and changes no other property |
| `QuizzesStore.WithQuizAdded` | src/stores/quizzesStore.ts:57-61 | upsert: `quiz` appears exactly once and is the only item with its id; others keep their multiplicity; sorted by title |
| `QuizzesStore.WithQuizUpdated` | src/stores/quizzesStore.ts:68-71 | length and multiset of ids kept; only matching items merged; re-sorted by title |
| `QuizzesStore.WithQuizRemoved` | src/stores/quizzesStore.ts:78-85 | an order-preserving subsequence of the old list holding exactly the items with another id that are not deleted; not re-sorted, yet a sorted list stays sorted |
| `QuizzesStore.RemovedIgnoresClock` | src/stores/quizzesStore.ts:82 | the deletion time never reaches the cache |
| `QuizzesStore.RemoveKeepsOrderInValidStore` | src/stores/quizzesStore.ts:76-88 | although `removeQuiz` does not sort, the list it stores in a valid store is still sorted and id-distinct |
| `QuizzesStore.ClearQuizzes` | src/stores/quizzesStore.ts:37 | empty map, total 0, valid; every lookup is empty |
| `QuizzesStore.QuizzesByTopic` | src/stores/quizzesStore.ts:90 | an absent key gives the empty list; a present key gives its list |
| `QuizzesStore.SetQuizzes` | src/stores/quizzesStore.ts:39-53 | the topic's list is the normalised input; other keys unchanged; total recounted; validity kept |
| `QuizzesStore.AddQuiz` | src/stores/quizzesStore.ts:55-64 | the topic's list becomes the upserted list; other keys unchanged; total recounted; validity kept |
| `QuizzesStore.UpdateQuiz` | src/stores/quizzesStore.ts:66-74 | the topic's list becomes the merged, re-sorted list; other keys unchanged; total recounted; validity kept |
| `QuizzesStore.RemoveQuiz` | src/stores/quizzesStore.ts:76-88 | the topic's list loses the quiz and every deleted quiz, keeping order; other keys unchanged; total recounted; validity kept |
| `SubjectsStore.Merge` | src/stores/subjectsStore.ts:31 | `{ ...old, ...patch }`: the required properties come from the patch; each optional one from the patch when present there, otherwise from the old item |
| `SubjectsStore.MergeComplete` | src/stores/subjectsStore.ts:31 | a patch that carries every property replaces the old item whole |
| `SubjectsStore.MergeIdempotent` | src/stores/subjectsStore.ts:31 | spreading the same patch twice is spreading it once |
| `SubjectsStore.MarkDeleted` | src/stores/subjectsStore.ts:39 | the soft delete sets `is_deleted` and stamps `deleted_at` with the given time, and changes no other property |
| `SubjectsStore.SetSubjects` | src/stores/subjectsStore.ts:26 | the list is stored verbatim |
| `SubjectsStore.AddSubject` | src/stores/subjectsStore.ts:27 | prepends: the head is the new subject, the tail the old list, one longer even for a repeated id |
| `SubjectsStore.UpdateSubject` | src/stores/subjectsStore.ts:28-33 | length, order and ids kept; items with another id unchanged; matching items merged |
| `SubjectsStore.RemoveSubject` | src/stores/subjectsStore.ts:34-43 | an order-preserving subsequence holding exactly the subjects with another id that are not deleted |
| `SubjectsStore.ActiveSubjects` | src/stores/subjectsStore.ts:44 | an order-preserving subsequence holding exactly the subjects not deleted |
| `SubjectsStore.RemoveIgnoresClock` | src/stores/subjectsStore.ts:39 | the deletion time never reaches the store |
| `SubjectsStore.ActiveAfterRemove` | src/stores/subjectsStore.ts:42-44 | right after `removeSubject`, `activeSubjects()` is the whole list |
| `SubjectsStore.RemoveUndoesAdd` | src/stores/subjectsStore.ts:27-43 | removing the id of a subject just added is removing it from the old list |
| `SubjectsStore.UpdateIdempotent` | src/stores/subjectsStore.ts:28-33 | applying the same update twice is applying it once |
| `DashboardStore.SetStats` | src/stores/dashboardStore.ts:19-20 | a plain value becomes the stats; an updater is applied to the old stats |
| `DashboardStore.ResetStats` | src/stores/dashboardStore.ts:21-22 | from any state, the initial stats `{0, 0, 0, "N/A"}` |
| `DashboardStore.ResetIdempotent` | src/stores/dashboardStore.ts:21-22 | resetting twice is resetting once |
| `DashboardStore.ResetIsReplaceByInitial` | src/stores/dashboardStore.ts:18-22 | resetting is `setStats` with the initial stats |
| `DashboardStore.UpdatersCompose` | src/stores/dashboardStore.ts:19-20 | two updaters in a row act as their composition |
| `DashboardQuery.RoundedUnique` | src/hooks/useDashboard.ts:43 | at most one integer is `a / b` rounded half up, so the rounding predicate pins down `Math.round` |
| `DashboardQuery.RoundDiv` | src/hooks/useDashboard.ts:43 | `Math.round(a / b)`: the integer nearest `a / b`, halves rounded up |
| `DashboardQuery.LiveAttempts` | src/hooks/useDashboard.ts:37-39 | an order-preserving subsequence holding exactly the rows whose quiz is present and not deleted |
| `DashboardQuery.TruthyScores` | src/hooks/useDashboard.ts:41 | the non-null, non-zero scores, each value as often as the rows carry it |
| `DashboardQuery.TruthyScoresEmpty` | src/hooks/useDashboard.ts:41-44 | no score is kept exactly when none is truthy |
| `DashboardQuery.SumAppend` | src/hooks/useDashboard.ts:43 | the `reduce` sum of a concatenation is the sum of the parts |
| `DashboardQuery.SumPermutation` | src/hooks/useDashboard.ts:43 | the `reduce` sum depends only on the multiset of scores, not their order |
| `DashboardQuery.Average` | src/hooks/useDashboard.ts:42-44 | "N/A" exactly for no scores; otherwise `Math.round(sum / count)`, a value `RoundedUnique` shows to be unique |
| `DashboardQuery.AverageWithinBounds` | src/hooks/useDashboard.ts:42-44 | the rounded mean lies between the least and the greatest score |
| `DashboardQuery.AverageOfEqualScores` | src/hooks/useDashboard.ts:42-44 | equal scores average to that score |
| `DashboardQuery.CompletionRate` | src/hooks/useDashboard.ts:46-49 | "N/A" exactly when the count is null or not positive; otherwise the rounded `attempted * 100 / count` |
| `DashboardQuery.CompletionRateIsPercentage` | src/hooks/useDashboard.ts:46-49 | no more attempts than quizzes gives 0 to 100; none gives 0; one per quiz gives 100 |
| `DashboardQuery.SmallExcessRoundsTo100` | src/hooks/useDashboard.ts:46-49 | attempts exceeding the count by less than half a percent still give 100, so a rate of at most 100 does not imply no excess attempts |
| `DashboardQuery.DashboardQuizzes` | src/hooks/useDashboard.ts:18-56 | without a client or a session, `{0, [], "N/A", "N/A"}`; otherwise `totalQuizzes` is the count or 0 |
| `DashboardQuery.RecentAreFirstLive` | src/hooks/useDashboard.ts:53 | `recent` is the prefix of the live attempts of length `min(5, live)` |
| `DashboardQuery.AverageAvailable` | src/hooks/useDashboard.ts:41-44 | the average is "N/A" exactly when no live attempt has a truthy score |
| `DashboardQuery.CompletionAvailable` | src/hooks/useDashboard.ts:46-49 | the rate is "N/A" exactly when the count is null or not positive, and otherwise the rounded percentage of live attempts |
| `DashboardQuery.ScoresAreCounted` | src/hooks/useDashboard.ts:37-43 | the filter, map and `filter(Boolean)` chain keeps exactly the truthy scores of rows whose quiz is present and not deleted: their sum and their number, counted row by row |
| `DashboardQuery.AverageIsRoundedMean` | src/hooks/useDashboard.ts:37-44 | the dashboard average is "N/A" exactly when no row counts, and otherwise the rounded mean of the counted rows' scores |
| `DashboardQuery.AverageOfLiveScores` | src/hooks/useDashboard.ts:37-44 | bounds on the truthy scores of live attempts bound the average, whatever the dropped rows hold |

## Left out

- Rendering, navigation and toasts (the screen components and the app layout): no logic beyond display. The dashboard screen (src/components/Dashboard.tsx:54-93) has its own copy of the live-attempt filter and the average of `useDashboardQuizzes`, which is modelled once. Its copy fetches only the five most recent attempts (`.limit(5)`) before filtering, so its average covers at most those five rows; it computes no completion rate.
- `Keyed.Lookup`: the caches are plain JavaScript objects, and the model treats them as maps whose keys are never names of inherited `Object.prototype` properties (`constructor`, `toString`, `__proto__`, ...). Keys are database uuids, so such a key does not arise. For such a key the source differs from the model in three ways:
  - a read (`topicsBySubject`, `quizzesByTopic`, the `|| []` in every write) returns the inherited value instead of `[]`;
  - `addTopic`, `updateTopic`, `removeTopic` and their quiz counterparts throw and leave the store unchanged;
  - `setAllTopics` with subject id `__proto__` sets the prototype instead of a key, so that list is missing from the map and from the total.
- The database and authentication SDK (the Supabase provider and client): external. The two fetches of the dashboard query become its inputs. The live-quiz count is an `Option<int>`, and the attempt rows are an `Option<seq<UserQuiz>>` already ordered newest first. Whether a client and a session exist are two booleans.
- The quiz-list query hook and device storage (AsyncStorage, JSON caching): server I/O and serialisation.
- zustand's subscriptions and react-query's caching (`staleTime`, refetch flags, the query key): framework behaviour. Each store write is modelled as a function or method from the old state to the new one.
- `new Date().toISOString()` in the soft deletes: it becomes a parameter `now`. The `...IgnoresClock` lemmas show it never reaches the stored lists.
- `localeCompare` is modelled as lexicographic order on code points (`Collation.LessEq`), not as the locale's collation. The sort is stable, as `Array.prototype.sort` is.
- `Normalisation.SortBy`: the contracts state sortedness, the multiset and distinctness, not stability as a separate property.
- Floating point is not modelled. Scores and counts are integers. `Math.round(x / y)` is modelled as exact rational rounding half up, and `(n / c) * 100` as `100 n / c`, so an IEEE rounding difference at an exact half is not modelled.
- `DashboardQuery.DashboardQuizzes`: its own contract covers only the no-session default and `totalQuizzes`. The other promises of the query function are stated by `RecentAreFirstLive`, `AverageAvailable`, `AverageIsRoundedMean`, `CompletionAvailable` and `AverageOfLiveScores`.
- The `quizzes!inner` join is taken as given: each row's quiz is a present-or-null value, and nothing checks that the join matches.
- TypeScript's structural typing of partial objects is not modelled. The items passed to `updateTopic`, `updateQuiz` and `updateSubject` are whole records whose optional properties may be absent (`Field.Absent`). A spread copies a present property and keeps the old one otherwise.

=== FILE: collation.dfy ===
/** The order `localeCompare` puts names and titles in, taken here as
    lexicographic order on code points: a proper prefix sorts first. */
module Collation {

  /** `a` sorts no later than `b` (`a.localeCompare(b) <= 0`). */
  predicate LessEq(a: string, b: string) {
    |a| == 0 || (|b| != 0 && (a[0] < b[0] || (a[0] == b[0] && LessEq(a[1..], b[1..]))))
  }

  lemma {:induction false} LessEqTotal(a: string, b: string)
    ensures LessEq(a, b) || LessEq(b, a)
  {
    if |a| != 0 && |b| != 0 && a[0] == b[0] {
      LessEqTotal(a[1..], b[1..]);
    }
  }

  lemma {:induction false} LessEqTransitive(a: string, b: string, c: string)
    requires LessEq(a, b) && LessEq(b, c)
    ensures LessEq(a, c)
  {
    if |a| != 0 && a[0] == b[0] && b[0] == c[0] {
      LessEqTransitive(a[1..], b[1..], c[1..]);
    }
  }

  lemma {:induction false} LessEqAntisymmetric(a: string, b: string)
    requires LessEq(a, b) && LessEq(b, a)
    ensures a == b
  {
    if |a| != 0 {
      LessEqAntisymmetric(a[1..], b[1..]);
      assert a == [a[0]] + a[1..];
      assert b == [b[0]] + b[1..];
    }
  }
}

=== FILE: dashboard_query.dfy ===
/** What the dashboard query makes of the two fetched results: the number of
    live quizzes, and the user's attempts newest first. Attempts on missing or
    deleted quizzes are dropped; the rest give an average score, a completion
    rate and the five most recent attempts. */
module DashboardQuery {
  import opened Values
  import opened Seqs

  /** The joined quiz of an attempt. */
  datatype QuizRef = QuizRef(id: string, title: string, isDeleted: bool)

  /** One attempt: a row of `user_quizzes` with its quiz joined in. */
  datatype UserQuiz = UserQuiz(id: string, score: Option<int>, completedAt: Option<string>, quiz: Option<QuizRef>)

  /** `number | "N/A"` */
  datatype Metric = NotAvailable | Value(n: int)

  datatype QuizStats = QuizStats(totalQuizzes: int, recent: seq<UserQuiz>, averageScore: Metric, completionRate: Metric)

  /** How many attempts the dashboard lists. */
  const RecentLimit := 5

  /** The result without a client or without a session. */
  const NoSession := QuizStats(0, [], NotAvailable, NotAvailable)

  /** `n` is `Math.round(a / b)` for a positive `b`: the integer nearest
      `a / b`, halves rounded up, i.e. `n <= a / b + 1/2 < n + 1`. */
  predicate IsRounded(n: int, a: int, b: int) {
    2 * b * n <= 2 * a + b < 2 * b * (n + 1)
  }

  /** At most one integer is the rounded quotient. */
  lemma RoundedUnique(n: int, m: int, a: int, b: int)
    requires b > 0 && IsRounded(n, a, b) && IsRounded(m, a, b)
    ensures n == m
  {
    if n < m {
      MulMonotone(2 * b, n + 1, m);
    } else if m < n {
      MulMonotone(2 * b, m + 1, n);
    }
  }

  /** `Math.round(a / b)` for a positive `b`. */
  function RoundDiv(a: int, b: int): (r: int)
    requires b > 0
    ensures IsRounded(r, a, b)
  {
    (2 * a + b) / (2 * b)
  }

  /** `uq.quizzes && !uq.quizzes.is_deleted` */
  predicate IsLive(uq: UserQuiz) {
    uq.quiz.Some? && !uq.quiz.value.isDeleted
  }

  /** The attempts the dashboard counts, in the order fetched. */
  function LiveAttempts(rows: seq<UserQuiz>): (r: seq<UserQuiz>)
    ensures IsSubseq(r, rows)
    ensures forall i :: 0 <= i < |r| ==> IsLive(r[i])
    ensures forall x :: multiset(r)[x] == if IsLive(x) then multiset(rows)[x] else 0
  {
    FilterSubseq(rows, IsLive);
    Filter(rows, IsLive)
  }

  /** `Boolean(score)` for a nullable number: neither null nor 0. */
  predicate Truthy(score: Option<int>) {
    score.Some? && score.value != 0
  }

  function ScoreOf(uq: UserQuiz): Option<int> {
    uq.score
  }

  /** `scores.filter(Boolean)`: the non-null, non-zero scores, in order. */
  function TruthyScores(scores: seq<Option<int>>): (r: seq<int>)
    ensures |r| <= |scores|
    ensures forall i :: 0 <= i < |r| ==> r[i] != 0
    ensures forall v :: v != 0 ==> multiset(r)[v] == multiset(scores)[Some(v)]
  {
    if |scores| == 0 then []
    else
      assert scores == [scores[0]] + scores[1..];
      (if Truthy(scores[0]) then [scores[0].value] else []) + TruthyScores(scores[1..])
  }

  /** No score is kept exactly when none is truthy. */
  lemma {:induction false} TruthyScoresEmpty(scores: seq<Option<int>>)
    ensures |TruthyScores(scores)| == 0 <==> forall i :: 0 <= i < |scores| ==> !Truthy(scores[i])
  {
    if |scores| != 0 {
      TruthyScoresEmpty(scores[1..]);
      if !Truthy(scores[0]) {
        forall i | 1 <= i < |scores|
          ensures scores[i] == scores[1..][i - 1]
        {
        }
      }
    }
  }

  /** `scores.reduce((a, b) => a + b, 0)` */
  function Sum(s: seq<int>): int {
    if |s| == 0 then 0 else s[0] + Sum(s[1..])
  }

  /** Summing a concatenation sums the parts. */
  lemma {:induction false} SumAppend(a: seq<int>, b: seq<int>)
    ensures Sum(a + b) == Sum(a) + Sum(b)
  {
    if |a| != 0 {
      SumAppend(a[1..], b);
      assert (a + b)[1..] == a[1..] + b;
    } else {
      assert a + b == b;
    }
  }

  /** The total does not depend on the order of the scores: lists with the
      same multiset of scores have the same sum. */
  lemma {:induction false} SumPermutation(a: seq<int>, b: seq<int>)
    requires multiset(a) == multiset(b)
    ensures Sum(a) == Sum(b)
    decreases |a|
  {
    if |a| != 0 {
      var x := a[0];
      assert a == [x] + a[1..];
      assert x in multiset(b);
      var j :| 0 <= j < |b| && b[j] == x;
      var rest := b[..j] + b[j + 1..];
      assert b == b[..j] + ([x] + b[j + 1..]);
      assert multiset(rest) == multiset(b) - multiset{x};
      assert multiset(a[1..]) == multiset(a) - multiset{x};
      SumPermutation(a[1..], rest);
      SumAppend(b[..j], [x] + b[j + 1..]);
      SumAppend(b[..j], b[j + 1..]);
      assert ([x] + b[j + 1..])[1..] == b[j + 1..];
    }
  }

  lemma {:induction false} SumBounds(s: seq<int>, lo: int, hi: int)
    requires forall i :: 0 <= i < |s| ==> lo <= s[i] <= hi
    ensures |s| * lo <= Sum(s) <= |s| * hi
  {
    if |s| != 0 {
      SumBounds(s[1..], lo, hi);
      assert |s| * lo == lo + |s[1..]| * lo;
      assert |s| * hi == hi + |s[1..]| * hi;
    }
  }

  /** The rounded mean of the scores, or "N/A" when there are none. */
  function Average(scores: seq<int>): (r: Metric)
    ensures r.NotAvailable? <==> |scores| == 0
    ensures r.Value? ==> IsRounded(r.n, Sum(scores), |scores|)
  {
    if |scores| == 0 then NotAvailable else Value(RoundDiv(Sum(scores), |scores|))
  }

  lemma MulMonotone(c: int, x: int, y: int)
    requires c >= 0
    ensures x <= y ==> c * x <= c * y
  {
    if x <= y {
      assert c * y - c * x == c * (y - x);
    }
  }

  lemma CancelLess(c: int, x: int, y: int)
    requires c > 0 && c * x < c * y
    ensures x < y
  {
    MulMonotone(c, y, x);
  }

  /** A quotient of a value between `b * lo` and `b * hi` rounds to a value
      between `lo` and `hi`. */
  lemma RoundDivWithin(a: int, b: int, lo: int, hi: int)
    requires b > 0 && b * lo <= a <= b * hi
    ensures lo <= RoundDiv(a, b) <= hi
  {
    var r := RoundDiv(a, b);
    assert (2 * b) * r <= 2 * a + b < (2 * b) * (r + 1);
    assert (2 * b) * (hi + 1) == 2 * (b * hi) + 2 * b;
    assert (2 * b) * lo == 2 * (b * lo);
    CancelLess(2 * b, r, hi + 1);
    CancelLess(2 * b, lo, r + 1);
  }

  /** The rounded mean lies between the least and the greatest score. */
  lemma AverageWithinBounds(scores: seq<int>, lo: int, hi: int)
    requires |scores| != 0
    requires forall i :: 0 <= i < |scores| ==> lo <= scores[i] <= hi
    ensures lo <= Average(scores).n <= hi
  {
    SumBounds(scores, lo, hi);
    RoundDivWithin(Sum(scores), |scores|, lo, hi);
  }

  /** Every score the same: the average is that score. */
  lemma AverageOfEqualScores(scores: seq<int>, v: int)
    requires |scores| != 0
    requires forall i :: 0 <= i < |scores| ==> scores[i] == v
    ensures Average(scores) == Value(v)
  {
    AverageWithinBounds(scores, v, v);
  }

  /** The share of live quizzes attempted, as a rounded percentage of `count`;
      "N/A" when the count is missing or not positive. */
  function CompletionRate(count: Option<int>, attempted: nat): (r: Metric)
    ensures r.NotAvailable? <==> count.None? || count.value <= 0
    ensures r.Value? ==> IsRounded(r.n, attempted * 100, count.value)
  {
    if count.Some? && count.value > 0 then Value(RoundDiv(attempted * 100, count.value)) else NotAvailable
  }

  /** No more attempts than live quizzes gives a percentage between 0 and 100;
      none gives 0 and one per quiz gives 100. */
  lemma CompletionRateIsPercentage(count: int, attempted: nat)
    requires 0 < count && attempted <= count
    ensures 0 <= CompletionRate(Some(count), attempted).n <= 100
    ensures attempted == 0 ==> CompletionRate(Some(count), attempted).n == 0
    ensures attempted == count ==> CompletionRate(Some(count), attempted).n == 100
  {
    MulMonotone(100, attempted, count);
    RoundDivWithin(attempted * 100, count, 0, 100);
    if attempted == 0 {
      RoundDivWithin(0, count, 0, 0);
    }
    if attempted == count {
      RoundDivWithin(count * 100, count, 100, 100);
    }
  }

  /** The converse of `CompletionRateIsPercentage` fails: attempts that
      outnumber the quizzes by less than half a percent still round to 100,
      as 1001 attempts on 1000 quizzes do. */
  lemma SmallExcessRoundsTo100(count: int, attempted: nat)
    requires 0 < count <= attempted && 200 * attempted < 201 * count
    ensures CompletionRate(Some(count), attempted).n == 100
  {
    var r := CompletionRate(Some(count), attempted);
    assert IsRounded(100, attempted * 100, count);
    RoundedUnique(r.n, 100, attempted * 100, count);
  }

  /** The query function of the dashboard hook once both fetches returned:
      `count` is the number of live quizzes (null when unknown) and `rows` the
      user's attempts newest first (null when none came back). */
  function DashboardQuizzes(hasClient: bool, hasSession: bool, count: Option<int>, rows: Option<seq<UserQuiz>>): (r: QuizStats)
    ensures !(hasClient && hasSession) ==> r == NoSession
    ensures hasClient && hasSession ==> r.totalQuizzes == count.GetOr(0)
  {
    if !(hasClient && hasSession) then NoSession
    else
      var live := LiveAttempts(rows.GetOr([]));
      QuizStats(
        count.GetOr(0),
        live[..if |live| < RecentLimit then |live| else RecentLimit],
        Average(TruthyScores(MapSeq(live, ScoreOf))),
        CompletionRate(count, |live|))
  }

  /** The recent list is the first five live attempts (all of them when
      there are fewer), in the order fetched. */
  lemma RecentAreFirstLive(count: Option<int>, rows: Option<seq<UserQuiz>>)
    ensures
      var r := DashboardQuizzes(true, true, count, rows);
      var live := LiveAttempts(rows.GetOr([]));
      && r.recent <= live
      && |r.recent| == (if |live| < RecentLimit then |live| else RecentLimit)
      && (forall i :: 0 <= i < |r.recent| ==> IsLive(r.recent[i]))
  {
  }

  /** The average is "N/A" exactly when no live attempt has a truthy score. */
  lemma AverageAvailable(count: Option<int>, rows: Option<seq<UserQuiz>>)
    ensures
      var live := LiveAttempts(rows.GetOr([]));
      DashboardQuizzes(true, true, count, rows).averageScore.NotAvailable? <==>
        forall i :: 0 <= i < |live| ==> !Truthy(live[i].score)
  {
    var live := LiveAttempts(rows.GetOr([]));
    var raw := MapSeq(live, ScoreOf);
    TruthyScoresEmpty(raw);
    var kept := TruthyScores(raw);
    assert DashboardQuizzes(true, true, count, rows).averageScore == Average(kept);
    assert Average(kept).NotAvailable? <==> |kept| == 0;
    forall i | 0 <= i < |live|
      ensures raw[i] == live[i].score
    {
    }
  }

  /** The completion rate is "N/A" exactly when the live-quiz count is null or
      not positive; otherwise it is the rounded percentage of live attempts. */
  lemma CompletionAvailable(count: Option<int>, rows: Option<seq<UserQuiz>>)
    ensures
      var r := DashboardQuizzes(true, true, count, rows);
      var attempted := |LiveAttempts(rows.GetOr([]))|;
      && (r.completionRate.NotAvailable? <==> count.None? || count.value <= 0)
      && (r.completionRate.Value? ==> IsRounded(r.completionRate.n, attempted * 100, count.value))
  {
    var live := LiveAttempts(rows.GetOr([]));
    assert DashboardQuizzes(true, true, count, rows).completionRate == CompletionRate(count, |live|);
  }

  /** Bounds on every truthy score bound every kept score. */
  lemma {:induction false} TruthyScoresWithin(scores: seq<Option<int>>, lo: int, hi: int)
    requires forall i :: 0 <= i < |scores| && Truthy(scores[i]) ==> lo <= scores[i].value <= hi
    ensures forall i :: 0 <= i < |TruthyScores(scores)| ==> lo <= TruthyScores(scores)[i] <= hi
  {
    if |scores| != 0 {
      var tail := scores[1..];
      forall i | 0 <= i < |tail| && Truthy(tail[i])
        ensures lo <= tail[i].value <= hi
      {
        assert tail[i] == scores[i + 1];
      }
      TruthyScoresWithin(tail, lo, hi);
      var head: seq<int> := if Truthy(scores[0]) then [scores[0].value] else [];
      assert TruthyScores(scores) == head + TruthyScores(tail);
    }
  }

  /** Every live attempt is one of the fetched rows. */
  lemma LiveAttemptIsRow(rows: seq<UserQuiz>, i: int)
    requires 0 <= i < |LiveAttempts(rows)|
    ensures LiveAttempts(rows)[i] in rows
  {
    var live := LiveAttempts(rows);
    assert live[i] in multiset(live);
  }

  /** Bounds on the truthy scores of the live attempts bound every score the
      average is taken over. */
  lemma LiveScoresWithin(rows: seq<UserQuiz>, lo: int, hi: int)
    requires forall i :: 0 <= i < |rows| && IsLive(rows[i]) && Truthy(rows[i].score) ==> lo <= rows[i].score.value <= hi
    ensures forall i :: 0 <= i < |TruthyScores(MapSeq(LiveAttempts(rows), ScoreOf))| ==>
      lo <= TruthyScores(MapSeq(LiveAttempts(rows), ScoreOf))[i] <= hi
  {
    var raw := MapSeq(LiveAttempts(rows), ScoreOf);
    forall i | 0 <= i < |raw| && Truthy(raw[i])
      ensures lo <= raw[i].value <= hi
    {
      LiveAttemptIsRow(rows, i);
    }
    TruthyScoresWithin(raw, lo, hi);
  }

  /** A live attempt with a truthy score leaves a score to average. */
  lemma LiveScoresNonEmpty(rows: seq<UserQuiz>, k: int)
    requires 0 <= k < |rows| && IsLive(rows[k]) && Truthy(rows[k].score)
    ensures |TruthyScores(MapSeq(LiveAttempts(rows), ScoreOf))| != 0
  {
    var live := LiveAttempts(rows);
    var raw := MapSeq(live, ScoreOf);
    assert multiset(live)[rows[k]] > 0;
    var j :| 0 <= j < |live| && live[j] == rows[k];
    assert Truthy(raw[j]);
    TruthyScoresEmpty(raw);
  }

  /** The average is taken over the truthy scores of the live attempts only:
      bounds on those scores bound the average, whatever the other rows hold. */
  lemma AverageOfLiveScores(count: Option<int>, rows: seq<UserQuiz>, lo: int, hi: int)
    requires forall i :: 0 <= i < |rows| && IsLive(rows[i]) && Truthy(rows[i].score) ==> lo <= rows[i].score.value <= hi
    requires exists i :: 0 <= i < |rows| && IsLive(rows[i]) && Truthy(rows[i].score)
    ensures DashboardQuizzes(true, true, count, Some(rows)).averageScore.Value?
    ensures lo <= DashboardQuizzes(true, true, count, Some(rows)).averageScore.n <= hi
  {
    var k :| 0 <= k < |rows| && IsLive(rows[k]) && Truthy(rows[k].score);
    LiveScoresNonEmpty(rows, k);
    LiveScoresWithin(rows, lo, hi);
    var scores := TruthyScores(MapSeq(LiveAttempts(rows), ScoreOf));
    AverageWithinBounds(scores, lo, hi);
    assert DashboardQuizzes(true, true, count, Some(rows)).averageScore == Average(scores);
  }

  /** A row whose score enters the average: its quiz is live and its score truthy. */
  predicate Counted(uq: UserQuiz) {
    IsLive(uq) && Truthy(uq.score)
  }

  /** The total of the counted scores, added up row by row. */
  function CountedTotal(rows: seq<UserQuiz>): int {
    if |rows| == 0 then 0
    else (if Counted(rows[0]) then rows[0].score.value else 0) + CountedTotal(rows[1..])
  }

  /** The number of counted rows. */
  function CountedRows(rows: seq<UserQuiz>): nat {
    if |rows| == 0 then 0
    else (if Counted(rows[0]) then 1 else 0) + CountedRows(rows[1..])
  }

  /** The scores the dashboard averages: `filtered.map(uq => uq.score).filter(Boolean)`. */
  function AveragedScores(rows: seq<UserQuiz>): seq<int> {
    TruthyScores(MapSeq(LiveAttempts(rows), ScoreOf))
  }

  /** The first row adds its score to the averaged ones exactly when it is counted. */
  lemma AveragedScoresStep(rows: seq<UserQuiz>)
    requires |rows| != 0
    ensures AveragedScores(rows) == (if Counted(rows[0]) then [rows[0].score.value] else []) + AveragedScores(rows[1..])
  {
    var x := rows[0];
    var liveRest := LiveAttempts(rows[1..]);
    var rawRest := MapSeq(liveRest, ScoreOf);
    var live := LiveAttempts(rows);
    if IsLive(x) {
      assert live == [x] + liveRest;
      assert live[1..] == liveRest;
      var raw := MapSeq(live, ScoreOf);
      assert raw == [x.score] + rawRest;
      assert raw[1..] == rawRest;
      if !Truthy(x.score) {
        assert AveragedScores(rows) == TruthyScores(rawRest);
      }
    } else {
      assert live == liveRest;
    }
  }

  /** The filter-map-filter pipeline of the dashboard keeps exactly the
      counted rows' scores: their sum and their number. */
  lemma ScoresAreCounted(rows: seq<UserQuiz>)
    ensures Sum(AveragedScores(rows)) == CountedTotal(rows)
    ensures |AveragedScores(rows)| == CountedRows(rows)
  {
    AveragedTotal(rows);
    AveragedCount(rows);
  }

  lemma {:induction false} AveragedTotal(rows: seq<UserQuiz>)
    ensures Sum(AveragedScores(rows)) == CountedTotal(rows)
  {
    if |rows| != 0 {
      var rest := AveragedScores(rows[1..]);
      AveragedTotal(rows[1..]);
      AveragedScoresStep(rows);
      if Counted(rows[0]) {
        var all := [rows[0].score.value] + rest;
        assert all[1..] == rest;
        assert Sum(all) == rows[0].score.value + Sum(rest);
      } else {
        assert AveragedScores(rows) == rest;
      }
    }
  }

  lemma {:induction false} AveragedCount(rows: seq<UserQuiz>)
    ensures |AveragedScores(rows)| == CountedRows(rows)
  {
    if |rows| != 0 {
      AveragedCount(rows[1..]);
      AveragedScoresStep(rows);
    }
  }

  /** The average the dashboard shows is `Math.round(total / n)` over the n
      counted rows, and "N/A" exactly when no row is counted. */
  lemma AverageIsRoundedMean(count: Option<int>, rows: Option<seq<UserQuiz>>)
    ensures
      var r := DashboardQuizzes(true, true, count, rows).averageScore;
      var all := rows.GetOr([]);
      && (r.NotAvailable? <==> CountedRows(all) == 0)
      && (r.Value? ==> IsRounded(r.n, CountedTotal(all), CountedRows(all)))
  {
    var all := rows.GetOr([]);
    ScoresAreCounted(all);
    assert DashboardQuizzes(true, true, count, rows).averageScore == Average(AveragedScores(all));
  }
}

=== FILE: dashboard_store.dfy ===
/** The dashboard's counters: three counts and an average score that is
    either a number or the text "N/A". */
module DashboardStore {

  /** `number | string` */
  datatype Score = Number(n: int) | Text(s: string)

  datatype Stats = Stats(subjects: int, topics: int, quizzes: int, averageScore: Score)

  /** The argument of `setStats`: a new value, or a function of the old one. */
  datatype StatsUpdate = Replace(stats: Stats) | Apply(f: Stats -> Stats)

  datatype DashboardState = DashboardState(stats: Stats)

  /** Nothing counted, no average yet. */
  const InitialStats := Stats(0, 0, 0, Text("N/A"))

  /** The store as it is created. */
  const Initial := DashboardState(InitialStats)

  /** `setStats(s)`: a plain value replaces the stats, an updater is applied to them. */
  function SetStats(st: DashboardState, u: StatsUpdate): (r: DashboardState)
    ensures u.Replace? ==> r.stats == u.stats
    ensures u.Apply? ==> r.stats == u.f(st.stats)
  {
    match u
    case Replace(s) => DashboardState(s)
    case Apply(f) => DashboardState(f(st.stats))
  }

  /** `resetStats()`. */
  function ResetStats(st: DashboardState): (r: DashboardState)
    ensures r == Initial
  {
    DashboardState(InitialStats)
  }

  /** Resetting twice is resetting once. */
  lemma ResetIdempotent(st: DashboardState)
    ensures ResetStats(ResetStats(st)) == ResetStats(st)
  {
  }

  /** Resetting is replacing the stats by the initial ones. */
  lemma ResetIsReplaceByInitial(st: DashboardState)
    ensures ResetStats(st) == SetStats(st, Replace(InitialStats))
  {
  }

  /** A plain value acts as the updater that ignores the old stats. */
  lemma ReplaceIsConstantUpdater(st: DashboardState, v: Stats)
    ensures SetStats(st, Replace(v)) == SetStats(st, Apply(_ => v))
  {
  }

  /** Two updaters in a row act as their composition. */
  lemma UpdatersCompose(st: DashboardState, f: Stats -> Stats, g: Stats -> Stats)
    ensures SetStats(SetStats(st, Apply(f)), Apply(g)) == SetStats(st, Apply(s => g(f(s))))
  {
  }
}

=== FILE: keyed.dfy ===
/** A cache of lists keyed by a parent id (`Record<string, T[]>`), with the
    number of cached items that the topic and quiz stores keep beside it. */
module Keyed {

  /** The number of items over all lists: `Object.values(m).flat().length`. */
  ghost function SumLengths<T>(m: map<string, seq<T>>): nat {
    SumOver(m, m.Keys)
  }

  /** The number of items in the lists under `keys`. */
  ghost function SumOver<T>(m: map<string, seq<T>>, keys: set<string>): nat
    requires keys <= m.Keys
  {
    if keys == {} then 0
    else
      var k :| k in keys;
      |m[k]| + SumOver(m, keys - {k})
  }

  /** `m[k] || []`: a missing key reads as the empty list. Keys are taken to
      be ids that never name a property every plain object inherits
      (`constructor`, `toString`, `__proto__`, ...); for those the record
      lookup would return the inherited value instead. */
  function Lookup<T>(m: map<string, seq<T>>, k: string): (r: seq<T>)
    ensures k in m ==> r == m[k]
    ensures k !in m ==> r == []
  {
    if k in m then m[k] else []
  }

  /** The sum does not depend on the order in which keys are visited: any key
      can be taken out first. */
  lemma {:induction false} SumOverRemove<T>(m: map<string, seq<T>>, keys: set<string>, k: string)
    requires keys <= m.Keys && k in keys
    ensures SumOver(m, keys) == |m[k]| + SumOver(m, keys - {k})
    decreases keys
  {
    var j :| j in keys && SumOver(m, keys) == |m[j]| + SumOver(m, keys - {j});
    if j != k {
      SumOverRemove(m, keys - {j}, k);
      SumOverRemove(m, keys - {k}, j);
      assert keys - {j} - {k} == keys - {k} - {j};
    }
  }

  /** The lists outside `keys` do not enter the sum. */
  lemma {:induction false} SumOverFrame<T>(m: map<string, seq<T>>, m': map<string, seq<T>>, keys: set<string>)
    requires keys <= m.Keys && keys <= m'.Keys
    requires forall k :: k in keys ==> m[k] == m'[k]
    ensures SumOver(m, keys) == SumOver(m', keys)
    decreases keys
  {
    if keys != {} {
      var j :| j in keys && SumOver(m, keys) == |m[j]| + SumOver(m, keys - {j});
      SumOverRemove(m', keys, j);
      SumOverFrame(m, m', keys - {j});
    }
  }

  /** Rewriting one key moves the sum by the difference in that list's length. */
  lemma SumLengthsPut<T>(m: map<string, seq<T>>, k: string, v: seq<T>)
    ensures SumLengths(m[k := v]) == SumLengths(m) - |Lookup(m, k)| + |v|
  {
    var m' := m[k := v];
    var others := m.Keys - {k};
    assert m'.Keys - {k} == others;
    SumOverRemove(m', m'.Keys, k);
    SumOverFrame(m, m', others);
    if k in m {
      SumOverRemove(m, m.Keys, k);
    } else {
      assert m.Keys == others;
    }
  }

  /** Counts the items of every list, visiting the keys in any order. */
  method FlatLength<T>(m: map<string, seq<T>>) returns (n: nat)
    ensures n == SumLengths(m)
  {
    n := 0;
    var rest := m.Keys;
    while rest != {}
      invariant rest <= m.Keys
      invariant n + SumOver(m, rest) == SumLengths(m)
      decreases rest
    {
      var k :| k in rest;
      SumOverRemove(m, rest, k);
      n := n + |m[k]|;
      rest := rest - {k};
    }
  }

  /** `{ ...m, [k]: v }` together with the recount of all items. */
  method Put<T>(m: map<string, seq<T>>, k: string, v: seq<T>) returns (m': map<string, seq<T>>, total: nat)
    ensures k in m' && m'[k] == v
    ensures m' - {k} == m - {k}
    ensures total == SumLengths(m')
    ensures total == SumLengths(m) - |Lookup(m, k)| + |v|
  {
    m' := m[k := v];
    SumLengthsPut(m, k, v);
    total := FlatLength(m');
  }
}

=== FILE: normalisation.dfy ===
/** How the topic and quiz caches normalise a list before storing it: keep
    the first item of each id (`list.filter((t, i, self) => self.findIndex(x
    => x.id === t.id) === i)`), then sort by a name with a stable sort. */
module Normalisation {
  import opened Collation
  import opened Seqs

  /** Every item sorts no later than every item after it. */
  ghost predicate SortedBy<T>(s: seq<T>, key: T -> string) {
    forall i, j :: 0 <= i < j < |s| ==> LessEq(key(s[i]), key(s[j]))
  }

  /** No two items share an id. */
  ghost predicate DistinctIds<T>(s: seq<T>, id: T -> string) {
    forall i, j :: 0 <= i < j < |s| ==> id(s[i]) != id(s[j])
  }

  /** `s[i]` is the first item of `s` carrying its id. */
  ghost predicate FirstOccurrence<T>(s: seq<T>, id: T -> string, i: int)
    requires 0 <= i < |s|
  {
    forall j :: 0 <= j < i ==> id(s[j]) != id(s[i])
  }

  /** `r` holds exactly the first occurrence of every id of `s`, once each,
      sorted by `key`. */
  ghost predicate NormalisedFrom<T>(r: seq<T>, s: seq<T>, id: T -> string, key: T -> string) {
    && SortedBy(r, key)
    && DistinctIds(r, id)
    && (forall x :: x in r ==> exists i :: 0 <= i < |s| && s[i] == x && FirstOccurrence(s, id, i))
    && (forall i :: 0 <= i < |s| && FirstOccurrence(s, id, i) ==> s[i] in r)
  }

  /** `s.findIndex(x => x.id === v)`: the first position holding id `v`, or -1. */
  function FindIndex<T>(s: seq<T>, id: T -> string, v: string): (r: int)
    ensures -1 <= r < |s|
    ensures r == -1 ==> forall j :: 0 <= j < |s| ==> id(s[j]) != v
    ensures r != -1 ==> id(s[r]) == v && forall j :: 0 <= j < r ==> id(s[j]) != v
  {
    if |s| == 0 then -1
    else if id(s[0]) == v then 0
    else
      var k := FindIndex(s[1..], id, v);
      if k == -1 then -1 else k + 1
  }

  /** The items of `s` from position `i` on that pass `findIndex(...) === index`. */
  function KeepFirsts<T>(s: seq<T>, id: T -> string, i: nat): (r: seq<T>)
    requires i <= |s|
    ensures |r| <= |s| - i
    ensures forall x :: x in r ==> exists j :: i <= j < |s| && s[j] == x && FirstOccurrence(s, id, j)
    ensures forall j :: i <= j < |s| && FirstOccurrence(s, id, j) ==> s[j] in r
    ensures DistinctIds(r, id)
    decreases |s| - i
  {
    if i == |s| then []
    else
      var rest := KeepFirsts(s, id, i + 1);
      if FindIndex(s, id, id(s[i])) == i then
        assert forall y :: y in rest ==> id(y) != id(s[i]);
        [s[i]] + rest
      else
        rest
  }

  /** The id filter applied to a whole list. */
  function Dedupe<T>(s: seq<T>, id: T -> string): (r: seq<T>)
    ensures |r| <= |s|
    ensures DistinctIds(r, id)
    ensures forall x :: x in r ==> exists j :: 0 <= j < |s| && s[j] == x && FirstOccurrence(s, id, j)
    ensures forall j :: 0 <= j < |s| && FirstOccurrence(s, id, j) ==> s[j] in r
  {
    KeepFirsts(s, id, 0)
  }

  /** A list whose ids are already distinct passes the id filter whole. */
  lemma {:induction false} KeepFirstsOfDistinct<T>(s: seq<T>, id: T -> string, i: nat)
    requires i <= |s| && DistinctIds(s, id)
    ensures KeepFirsts(s, id, i) == s[i..]
    decreases |s| - i
  {
    if i < |s| {
      KeepFirstsOfDistinct(s, id, i + 1);
      assert FirstOccurrence(s, id, i);
      FindIndexOfFirst(s, id, i);
      assert s[i..] == [s[i]] + s[i + 1..];
    }
  }

  /** `findIndex` on an item's own id finds the item exactly when it is the
      first with that id. */
  lemma FindIndexOfFirst<T>(s: seq<T>, id: T -> string, i: int)
    requires 0 <= i < |s|
    ensures FindIndex(s, id, id(s[i])) == i <==> FirstOccurrence(s, id, i)
  {
    var r := FindIndex(s, id, id(s[i]));
    if FirstOccurrence(s, id, i) {
      assert r != -1;
    }
  }

  /** Places `x` before the first item it sorts no later than: a stable
      insertion, as `x` came before every item of `s` in the input. */
  function Insert<T>(x: T, s: seq<T>, key: T -> string): (r: seq<T>)
    ensures |r| == |s| + 1
    ensures multiset(r) == multiset(s) + multiset{x}
  {
    if |s| == 0 || LessEq(key(x), key(s[0])) then [x] + s
    else
      assert s == [s[0]] + s[1..];
      [s[0]] + Insert(x, s[1..], key)
  }

  /** `list.slice().sort((a, b) => key(a).localeCompare(key(b)))`, a stable sort. */
  function SortBy<T>(s: seq<T>, key: T -> string): (r: seq<T>)
    ensures |r| == |s|
    ensures multiset(r) == multiset(s)
  {
    if |s| == 0 then []
    else
      assert s == [s[0]] + s[1..];
      Insert(s[0], SortBy(s[1..], key), key)
  }

  lemma {:induction false} InsertSorted<T>(x: T, s: seq<T>, key: T -> string)
    requires SortedBy(s, key)
    ensures SortedBy(Insert(x, s, key), key)
  {
    if |s| != 0 {
      if LessEq(key(x), key(s[0])) {
        forall j | 0 <= j < |s|
          ensures LessEq(key(x), key(s[j]))
        {
          if j > 0 {
            LessEqTransitive(key(x), key(s[0]), key(s[j]));
          }
        }
      } else {
        LessEqTotal(key(x), key(s[0]));
        InsertSorted(x, s[1..], key);
        var t := Insert(x, s[1..], key);
        forall y | y in t
          ensures LessEq(key(s[0]), key(y))
        {
          assert y in multiset(t);
        }
      }
    }
  }

  lemma {:induction false} SortBySorted<T>(s: seq<T>, key: T -> string)
    ensures SortedBy(SortBy(s, key), key)
  {
    if |s| != 0 {
      SortBySorted(s[1..], key);
      InsertSorted(s[0], SortBy(s[1..], key), key);
    }
  }

  lemma {:induction false} InsertDistinct<T>(x: T, s: seq<T>, id: T -> string, key: T -> string)
    requires DistinctIds(s, id)
    requires forall y :: y in s ==> id(y) != id(x)
    ensures DistinctIds(Insert(x, s, key), id)
  {
    if |s| != 0 && !LessEq(key(x), key(s[0])) {
      InsertDistinct(x, s[1..], id, key);
      var t := Insert(x, s[1..], key);
      forall y | y in t
        ensures id(y) != id(s[0])
      {
        assert y in multiset(t);
      }
    }
  }

  lemma {:induction false} SortByDistinct<T>(s: seq<T>, id: T -> string, key: T -> string)
    requires DistinctIds(s, id)
    ensures DistinctIds(SortBy(s, key), id)
  {
    if |s| != 0 {
      SortByDistinct(s[1..], id, key);
      var t := SortBy(s[1..], key);
      forall y | y in t
        ensures id(y) != id(s[0])
      {
        assert y in multiset(t);
      }
      InsertDistinct(s[0], t, id, key);
    }
  }

  /** Sorting keeps the multiset of ids (or of any other projection). */
  lemma {:induction false} SortByProjection<T, U>(s: seq<T>, key: T -> string, f: T -> U)
    ensures multiset(MapSeq(SortBy(s, key), f)) == multiset(MapSeq(s, f))
  {
    if |s| != 0 {
      SortByProjection(s[1..], key, f);
      InsertProjection(s[0], SortBy(s[1..], key), key, f);
      assert MapSeq(s, f) == [f(s[0])] + MapSeq(s[1..], f);
    }
  }

  lemma {:induction false} InsertProjection<T, U>(x: T, s: seq<T>, key: T -> string, f: T -> U)
    ensures multiset(MapSeq(Insert(x, s, key), f)) == multiset(MapSeq(s, f)) + multiset{f(x)}
  {
    if |s| != 0 {
      assert s == [s[0]] + s[1..];
      MapSeqCons(s[0], s[1..], f);
      var head := multiset{f(s[0])};
      assert multiset(MapSeq(s, f)) == head + multiset(MapSeq(s[1..], f));
      if !LessEq(key(x), key(s[0])) {
        var t := Insert(x, s[1..], key);
        InsertProjection(x, s[1..], key, f);
        MapSeqCons(s[0], t, f);
        assert multiset(MapSeq(Insert(x, s, key), f)) == head + multiset(MapSeq(t, f));
      } else {
        MapSeqCons(x, s, f);
      }
    } else {
      MapSeqCons(x, s, f);
    }
  }

  /** Two lists with the same ids in the same places are distinct alike. */
  lemma SameIdsDistinct<T>(a: seq<T>, b: seq<T>, id: T -> string)
    requires MapSeq(a, id) == MapSeq(b, id)
    requires DistinctIds(b, id)
    ensures DistinctIds(a, id)
  {
    forall i, j | 0 <= i < j < |a|
      ensures id(a[i]) != id(a[j])
    {
      assert id(a[i]) == MapSeq(b, id)[i] && id(a[j]) == MapSeq(b, id)[j];
    }
  }

  /** Sorting an already sorted list changes nothing. */
  lemma {:induction false} SortByOfSorted<T>(s: seq<T>, key: T -> string)
    requires SortedBy(s, key)
    ensures SortBy(s, key) == s
  {
    if |s| != 0 {
      SortByOfSorted(s[1..], key);
      assert s == [s[0]] + s[1..];
    }
  }

  /** A lower bound on every key of a list bounds every key `filter` keeps. */
  lemma FilterLowerBound<T(!new)>(s: seq<T>, p: T -> bool, key: T -> string, lo: string)
    requires forall i :: 0 <= i < |s| ==> LessEq(lo, key(s[i]))
    ensures forall j :: 0 <= j < |Filter(s, p)| ==> LessEq(lo, key(Filter(s, p)[j]))
  {
    forall j | 0 <= j < |Filter(s, p)|
      ensures LessEq(lo, key(Filter(s, p)[j]))
    {
      FilterElement(s, p, j);
    }
  }

  /** Filtering keeps a list sorted. */
  lemma {:induction false} FilterKeepsSorted<T(!new)>(s: seq<T>, p: T -> bool, key: T -> string)
    requires SortedBy(s, key)
    ensures SortedBy(Filter(s, p), key)
  {
    if |s| != 0 {
      var tail := s[1..];
      assert SortedBy(tail, key);
      FilterKeepsSorted(tail, p, key);
      var rest := Filter(tail, p);
      if p(s[0]) {
        assert forall i :: 0 <= i < |tail| ==> LessEq(key(s[0]), key(tail[i]));
        FilterLowerBound(tail, p, key, key(s[0]));
        ConsSorted(s[0], rest, key);
        assert Filter(s, p) == [s[0]] + rest;
      } else {
        assert Filter(s, p) == rest;
      }
    }
  }

  /** An item no greater than any of a sorted list goes in front of it. */
  lemma ConsSorted<T>(x: T, s: seq<T>, key: T -> string)
    requires SortedBy(s, key)
    requires forall j :: 0 <= j < |s| ==> LessEq(key(x), key(s[j]))
    ensures SortedBy([x] + s, key)
  {
    var r := [x] + s;
    forall i, j | 0 <= i < j < |r|
      ensures LessEq(key(r[i]), key(r[j]))
    {
      assert r[j] == s[j - 1];
      if i != 0 {
        assert r[i] == s[i - 1];
      }
    }
  }

  /** Filtering keeps the ids of a list distinct. */
  lemma {:induction false} FilterKeepsDistinct<T(!new)>(s: seq<T>, p: T -> bool, id: T -> string)
    requires DistinctIds(s, id)
    ensures DistinctIds(Filter(s, p), id)
  {
    if |s| != 0 {
      FilterKeepsDistinct(s[1..], p, id);
      var rest := Filter(s[1..], p);
      if p(s[0]) {
        forall j | 0 <= j < |rest|
          ensures id(s[0]) != id(rest[j])
        {
          FilterElement(s[1..], p, j);
          var k :| 0 <= k < |s[1..]| && s[1..][k] == rest[j];
          assert s[k + 1] == rest[j];
        }
        ConsDistinct(s[0], rest, id);
        assert Filter(s, p) == [s[0]] + rest;
      } else {
        assert Filter(s, p) == rest;
      }
    }
  }

  /** An item whose id no item of a distinct list carries goes in front of it. */
  lemma ConsDistinct<T>(x: T, s: seq<T>, id: T -> string)
    requires DistinctIds(s, id)
    requires forall j :: 0 <= j < |s| ==> id(x) != id(s[j])
    ensures DistinctIds([x] + s, id)
  {
    var r := [x] + s;
    forall i, j | 0 <= i < j < |r|
      ensures id(r[i]) != id(r[j])
    {
      assert r[j] == s[j - 1];
      if i != 0 {
        assert r[i] == s[i - 1];
      }
    }
  }

  /** Dedupe by id, then sort by key. */
  function Normalise<T>(s: seq<T>, id: T -> string, key: T -> string): (r: seq<T>)
    ensures |r| <= |s|
    ensures NormalisedFrom(r, s, id, key)
  {
    NormaliseSpec(s, id, key);
    SortBy(Dedupe(s, id), key)
  }

  lemma NormaliseSpec<T>(s: seq<T>, id: T -> string, key: T -> string)
    ensures NormalisedFrom(SortBy(Dedupe(s, id), key), s, id, key)
  {
    var d := Dedupe(s, id);
    var r := SortBy(d, key);
    SortBySorted(d, key);
    SortByDistinct(d, id, key);
    SameElements(r, d);
    forall x | x in r
      ensures exists i :: 0 <= i < |s| && s[i] == x && FirstOccurrence(s, id, i)
    {
      assert x in multiset(r);
      assert x in multiset(d);
      assert x in d;
    }
  }

  /** A list that is already sorted with distinct ids is its own normal form. */
  lemma NormaliseOfNormalised<T>(s: seq<T>, id: T -> string, key: T -> string)
    requires SortedBy(s, key) && DistinctIds(s, id)
    ensures Normalise(s, id, key) == s
  {
    KeepFirstsOfDistinct(s, id, 0);
    SortByOfSorted(s, key);
  }

  /** Normalising twice is normalising once. */
  lemma NormaliseIdempotent<T>(s: seq<T>, id: T -> string, key: T -> string)
    ensures Normalise(Normalise(s, id, key), id, key) == Normalise(s, id, key)
  {
    NormaliseOfNormalised(Normalise(s, id, key), id, key);
  }
}

=== FILE: quizzes_store.dfy ===
/** The in-memory cache of quizzes, keyed by topic id. It works like the
    topic cache, with one difference: removing a quiz does not sort again. */
module QuizzesStore {
  import opened Values
  import opened Seqs
  import opened Normalisation
  import opened Keyed

  datatype Quiz = Quiz(
    id: string,
    topicId: string,
    title: string,
    description: Field<Option<string>>,
    isDeleted: bool,
    createdBy: string,
    isPublic: Field<bool>,
    isAiGenerated: Field<bool>,
    createdAt: Field<string>,
    updatedAt: Field<string>,
    deletedAt: Field<Option<string>>)

  function IdOf(q: Quiz): string { q.id }

  function TitleOf(q: Quiz): string { q.title }

  /** `{ ...base, ...patch }`: every required property comes from `patch`,
      an optional one from `patch` when it carries it and from `base` otherwise. */
  function Merge(base: Quiz, patch: Quiz): (r: Quiz)
    ensures r.id == patch.id && r.topicId == patch.topicId && r.title == patch.title && r.isDeleted == patch.isDeleted && r.createdBy == patch.createdBy
    ensures Spread(r.description, base.description, patch.description)
    ensures Spread(r.isPublic, base.isPublic, patch.isPublic)
    ensures Spread(r.isAiGenerated, base.isAiGenerated, patch.isAiGenerated)
    ensures Spread(r.createdAt, base.createdAt, patch.createdAt)
    ensures Spread(r.updatedAt, base.updatedAt, patch.updatedAt)
    ensures Spread(r.deletedAt, base.deletedAt, patch.deletedAt)
  {
    Quiz(
      patch.id, patch.topicId, patch.title, Overlay(base.description, patch.description),
      patch.isDeleted, patch.createdBy, Overlay(base.isPublic, patch.isPublic),
      Overlay(base.isAiGenerated, patch.isAiGenerated), Overlay(base.createdAt, patch.createdAt),
      Overlay(base.updatedAt, patch.updatedAt), Overlay(base.deletedAt, patch.deletedAt))
  }

  /** The soft-delete mark, stamped with the time `now` (an ISO string). */
  function MarkDeleted(q: Quiz, now: string): (r: Quiz)
    ensures r.isDeleted && r.deletedAt == Present(Some(now))
    ensures r.(isDeleted := q.isDeleted, deletedAt := q.deletedAt) == q
  {
    q.(isDeleted := true, deletedAt := Present(Some(now)))
  }

  /** The patch carries every optional property. */
  predicate Complete(patch: Quiz) {
    patch.description.Present? && patch.isPublic.Present? && patch.isAiGenerated.Present? && patch.createdAt.Present? && patch.updatedAt.Present? && patch.deletedAt.Present?
  }

  /** A complete patch replaces the quiz it is spread onto. */
  lemma MergeComplete(base: Quiz, patch: Quiz)
    requires Complete(patch)
    ensures Merge(base, patch) == patch
  {
  }

  /** Spreading the same patch twice is spreading it once. */
  lemma MergeIdempotent(base: Quiz, patch: Quiz)
    ensures Merge(Merge(base, patch), patch) == Merge(base, patch)
  {
  }

  datatype QuizzesState = QuizzesState(quizzes: map<string, seq<Quiz>>, totalQuizzes: nat)

  /** The store as it is created: no topics cached, no quizzes counted. */
  const Empty := QuizzesState(map[], 0)

  ghost predicate Normalised(list: seq<Quiz>) {
    SortedBy(list, TitleOf) && DistinctIds(list, IdOf)
  }

  /** What every write keeps: the count is the number of cached quizzes, and
      every cached list is sorted by title with distinct ids. */
  ghost predicate Valid(st: QuizzesState) {
    && st.totalQuizzes == SumLengths(st.quizzes)
    && forall k :: k in st.quizzes ==> Normalised(st.quizzes[k])
  }

  /** `sortByTitle`. */
  function SortByTitle(list: seq<Quiz>): (r: seq<Quiz>)
    ensures SortedBy(r, TitleOf)
    ensures multiset(r) == multiset(list)
  {
    SortBySorted(list, TitleOf);
    SortBy(list, TitleOf)
  }

  /** The list `setQuizzes` stores for one topic. */
  function NormaliseQuizzes(list: seq<Quiz>): (r: seq<Quiz>)
    ensures NormalisedFrom(r, list, IdOf, TitleOf)
  {
    Normalise(list, IdOf, TitleOf)
  }

  /** `q => q.id !== id` */
  function OtherThan(id: string): Quiz -> bool {
    (q: Quiz) => q.id != id
  }

  /** `q => !q.is_deleted` */
  function Live(q: Quiz): bool {
    !q.isDeleted
  }

  /** `q => q.id === patch.id ? { ...q, ...patch } : q` */
  function MergeMatching(patch: Quiz): Quiz -> Quiz {
    (q: Quiz) => if q.id == patch.id then Merge(q, patch) else q
  }

  /** `q => q.id === id ? { ...q, is_deleted: true, deleted_at: now } : q` */
  function MarkMatching(id: string, now: string): Quiz -> Quiz {
    (q: Quiz) => if q.id == id then MarkDeleted(q, now) else q
  }

  /** The quizzes `removeQuiz` lets through: another id, and not deleted. */
  function Survives(id: string): Quiz -> bool {
    (q: Quiz) => q.id != id && !q.isDeleted
  }

  /** The list `addQuiz` stores: `quiz` replaces every item with its id. */
  function WithQuizAdded(existing: seq<Quiz>, quiz: Quiz): (r: seq<Quiz>)
    ensures SortedBy(r, TitleOf)
    ensures multiset(r)[quiz] == 1
    ensures forall x :: x in r && x.id == quiz.id ==> x == quiz
    ensures forall x: Quiz :: x.id != quiz.id ==> multiset(r)[x] == multiset(existing)[x]
    ensures DistinctIds(existing, IdOf) ==> DistinctIds(r, IdOf)
  {
    var others := Filter(existing, OtherThan(quiz.id));
    var r := SortByTitle([quiz] + others);
    AddedHoldsQuizOnce(existing, quiz, others, r);
    AddedKeepsOthers(existing, quiz, others, r);
    AddedKeepsDistinct(existing, quiz, others, r);
    r
  }

  lemma AddedHoldsQuizOnce(existing: seq<Quiz>, quiz: Quiz, others: seq<Quiz>, r: seq<Quiz>)
    requires others == Filter(existing, OtherThan(quiz.id))
    requires r == SortByTitle([quiz] + others)
    ensures multiset(r)[quiz] == 1
    ensures forall x :: x in r && x.id == quiz.id ==> x == quiz
  {
    assert multiset(r) == multiset{quiz} + multiset(others);
    forall x | x in r && x.id == quiz.id
      ensures x == quiz
    {
      assert x in multiset(r);
      assert multiset(others)[x] == 0;
    }
  }

  lemma AddedKeepsOthers(existing: seq<Quiz>, quiz: Quiz, others: seq<Quiz>, r: seq<Quiz>)
    requires others == Filter(existing, OtherThan(quiz.id))
    requires r == SortByTitle([quiz] + others)
    ensures forall x: Quiz :: x.id != quiz.id ==> multiset(r)[x] == multiset(existing)[x]
  {
    assert multiset(r) == multiset{quiz} + multiset(others);
  }

  lemma AddedKeepsDistinct(existing: seq<Quiz>, quiz: Quiz, others: seq<Quiz>, r: seq<Quiz>)
    requires others == Filter(existing, OtherThan(quiz.id))
    requires r == SortByTitle([quiz] + others)
    ensures DistinctIds(existing, IdOf) ==> DistinctIds(r, IdOf)
  {
    var list := [quiz] + others;
    if DistinctIds(existing, IdOf) {
      FilterKeepsDistinct(existing, OtherThan(quiz.id), IdOf);
      assert DistinctIds(list, IdOf) by {
        forall j | 0 < j < |list|
          ensures list[0].id != list[j].id
        {
          assert list[j] == others[j - 1];
        }
      }
      SortByDistinct(list, IdOf, TitleOf);
    }
  }

  /** The list `updateQuiz` stores: every item with `quiz.id` is merged with
      `quiz`, then the list is sorted by title again. */
  function WithQuizUpdated(existing: seq<Quiz>, quiz: Quiz): (r: seq<Quiz>)
    ensures |r| == |existing|
    ensures SortedBy(r, TitleOf)
    ensures multiset(MapSeq(r, IdOf)) == multiset(MapSeq(existing, IdOf))
    ensures forall x: Quiz :: x.id != quiz.id ==> multiset(r)[x] == multiset(existing)[x]
    ensures forall x :: x in r && x.id == quiz.id ==>
              exists e :: e in existing && e.id == quiz.id && x == Merge(e, quiz)
    ensures (forall e :: e in existing ==> e.id != quiz.id) ==> r == SortByTitle(existing)
    ensures DistinctIds(existing, IdOf) ==> DistinctIds(r, IdOf)
  {
    var mapped := MapSeq(existing, MergeMatching(quiz));
    var r := SortByTitle(mapped);
    UpdatedKeepsIds(existing, quiz, mapped, r);
    UpdatedKeepsOthers(existing, quiz, mapped, r);
    UpdatedMergesMatches(existing, quiz, mapped, r);
    UpdatedWithoutMatch(existing, quiz, mapped, r);
    r
  }

  lemma UpdatedKeepsIds(existing: seq<Quiz>, quiz: Quiz, mapped: seq<Quiz>, r: seq<Quiz>)
    requires mapped == MapSeq(existing, MergeMatching(quiz))
    requires r == SortByTitle(mapped)
    ensures multiset(MapSeq(r, IdOf)) == multiset(MapSeq(existing, IdOf))
    ensures DistinctIds(existing, IdOf) ==> DistinctIds(r, IdOf)
  {
    forall i | 0 <= i < |existing|
      ensures MapSeq(mapped, IdOf)[i] == MapSeq(existing, IdOf)[i]
    {
      assert mapped[i] == MergeMatching(quiz)(existing[i]);
    }
    assert MapSeq(mapped, IdOf) == MapSeq(existing, IdOf);
    SortByProjection(mapped, TitleOf, IdOf);
    if DistinctIds(existing, IdOf) {
      SameIdsDistinct(mapped, existing, IdOf);
      SortByDistinct(mapped, IdOf, TitleOf);
    }
  }

  lemma UpdatedKeepsOthers(existing: seq<Quiz>, quiz: Quiz, mapped: seq<Quiz>, r: seq<Quiz>)
    requires mapped == MapSeq(existing, MergeMatching(quiz))
    requires r == SortByTitle(mapped)
    ensures forall x: Quiz :: x.id != quiz.id ==> multiset(r)[x] == multiset(existing)[x]
  {
    forall x: Quiz | x.id != quiz.id
      ensures multiset(r)[x] == multiset(existing)[x]
    {
      MapSeqCount(existing, MergeMatching(quiz), x);
    }
  }

  lemma UpdatedMergesMatches(existing: seq<Quiz>, quiz: Quiz, mapped: seq<Quiz>, r: seq<Quiz>)
    requires mapped == MapSeq(existing, MergeMatching(quiz))
    requires r == SortByTitle(mapped)
    ensures forall x :: x in r && x.id == quiz.id ==>
              exists e :: e in existing && e.id == quiz.id && x == Merge(e, quiz)
  {
    forall x | x in r && x.id == quiz.id
      ensures exists e :: e in existing && e.id == quiz.id && x == Merge(e, quiz)
    {
      assert x in multiset(r);
      assert x in mapped;
      var i :| 0 <= i < |mapped| && mapped[i] == x;
      assert existing[i] in existing;
    }
  }

  lemma UpdatedWithoutMatch(existing: seq<Quiz>, quiz: Quiz, mapped: seq<Quiz>, r: seq<Quiz>)
    requires mapped == MapSeq(existing, MergeMatching(quiz))
    requires r == SortByTitle(mapped)
    ensures (forall e :: e in existing ==> e.id != quiz.id) ==> r == SortByTitle(existing)
  {
    if forall e :: e in existing ==> e.id != quiz.id {
      MapSeqIdentity(existing, MergeMatching(quiz));
    }
  }

  /** The list `removeQuiz` stores: the item with `quiz.id` is marked deleted
      at `now` and every deleted item is dropped. The survivors are not sorted
      again; they keep the order they had. */
  function WithQuizRemoved(existing: seq<Quiz>, quiz: Quiz, now: string): (r: seq<Quiz>)
    ensures IsSubseq(r, existing)
    ensures forall x :: multiset(r)[x] == if x.id != quiz.id && !x.isDeleted then multiset(existing)[x] else 0
    ensures forall x :: x in r ==> x.id != quiz.id && !x.isDeleted
    ensures SortedBy(existing, TitleOf) ==> SortedBy(r, TitleOf)
    ensures DistinctIds(existing, IdOf) ==> DistinctIds(r, IdOf)
  {
    var r := Filter(MapSeq(existing, MarkMatching(quiz.id, now)), Live);
    RemovedIsFilter(existing, quiz, now);
    RemovedSpec(existing, quiz, r);
    r
  }

  /** Marking one id deleted and dropping deleted quizzes is one filter. */
  lemma RemovedIsFilter(existing: seq<Quiz>, quiz: Quiz, now: string)
    ensures Filter(MapSeq(existing, MarkMatching(quiz.id, now)), Live) == Filter(existing, Survives(quiz.id))
  {
    FilterAfterMap(existing, MarkMatching(quiz.id, now), Live, Survives(quiz.id));
  }

  lemma RemovedSpec(existing: seq<Quiz>, quiz: Quiz, r: seq<Quiz>)
    requires r == Filter(existing, Survives(quiz.id))
    ensures IsSubseq(r, existing)
    ensures forall x :: x in r ==> x.id != quiz.id && !x.isDeleted
    ensures SortedBy(existing, TitleOf) ==> SortedBy(r, TitleOf)
    ensures DistinctIds(existing, IdOf) ==> DistinctIds(r, IdOf)
  {
    FilterSubseq(existing, Survives(quiz.id));
    forall x | x in r
      ensures x.id != quiz.id && !x.isDeleted
    {
      assert x in multiset(r);
    }
    if SortedBy(existing, TitleOf) {
      FilterKeepsSorted(existing, Survives(quiz.id), TitleOf);
    }
    if DistinctIds(existing, IdOf) {
      FilterKeepsDistinct(existing, Survives(quiz.id), IdOf);
    }
  }

  /** The deletion time stamped on the removed quiz never reaches the cache. */
  lemma RemovedIgnoresClock(existing: seq<Quiz>, quiz: Quiz, now1: string, now2: string)
    ensures WithQuizRemoved(existing, quiz, now1) == WithQuizRemoved(existing, quiz, now2)
  {
    RemovedIsFilter(existing, quiz, now1);
    RemovedIsFilter(existing, quiz, now2);
  }

  /** A write that rewrites one topic's list and recounts keeps the store
      valid when the list it writes is normalised. */
  lemma RewriteKeepsValid(st: QuizzesState, st': QuizzesState, topicId: string)
    requires topicId in st'.quizzes
    requires st'.quizzes - {topicId} == st.quizzes - {topicId}
    requires st'.totalQuizzes == SumLengths(st'.quizzes)
    requires Valid(st) ==> Normalised(st'.quizzes[topicId])
    ensures Valid(st) ==> Valid(st')
  {
    if Valid(st) {
      forall k | k in st'.quizzes
        ensures Normalised(st'.quizzes[k])
      {
        if k != topicId {
          assert k in st'.quizzes - {topicId};
          assert k in st.quizzes - {topicId};
          assert st'.quizzes[k] == (st'.quizzes - {topicId})[k];
        }
      }
    }
  }

  /** Storing again a list the store already holds changes nothing. */
  lemma NormaliseCachedList(st: QuizzesState, topicId: string)
    requires Valid(st) && topicId in st.quizzes
    ensures NormaliseQuizzes(st.quizzes[topicId]) == st.quizzes[topicId]
  {
    NormaliseOfNormalised(st.quizzes[topicId], IdOf, TitleOf);
  }

  /** In a valid store, removing a quiz keeps the topic's list sorted by title
      although `removeQuiz` does not sort. */
  lemma RemoveKeepsOrderInValidStore(st: QuizzesState, quiz: Quiz, now: string)
    requires Valid(st)
    ensures Normalised(WithQuizRemoved(QuizzesByTopic(st, quiz.topicId), quiz, now))
  {
  }

  /** `clearQuizzes`. */
  function ClearQuizzes(st: QuizzesState): (r: QuizzesState)
    ensures r.quizzes == map[] && r.totalQuizzes == 0
    ensures Valid(r)
    ensures forall k :: QuizzesByTopic(r, k) == []
  {
    Empty
  }

  /** `quizzesByTopic`. */
  function QuizzesByTopic(st: QuizzesState, topicId: string): (r: seq<Quiz>)
    ensures topicId !in st.quizzes ==> r == []
    ensures topicId in st.quizzes ==> r == st.quizzes[topicId]
    ensures Valid(st) ==> Normalised(r)
  {
    Lookup(st.quizzes, topicId)
  }

  /** `setQuizzes(topicId, list)`. */
  method SetQuizzes(st: QuizzesState, topicId: string, list: seq<Quiz>) returns (st': QuizzesState)
    ensures topicId in st'.quizzes && NormalisedFrom(st'.quizzes[topicId], list, IdOf, TitleOf)
    ensures st'.quizzes - {topicId} == st.quizzes - {topicId}
    ensures st'.totalQuizzes == SumLengths(st'.quizzes)
    ensures Valid(st) ==> Valid(st')
  {
    var quizzes, total := Put(st.quizzes, topicId, NormaliseQuizzes(list));
    st' := QuizzesState(quizzes, total);
    RewriteKeepsValid(st, st', topicId);
  }

  /** `addQuiz(quiz)`. */
  method AddQuiz(st: QuizzesState, quiz: Quiz) returns (st': QuizzesState)
    ensures quiz.topicId in st'.quizzes
    ensures st'.quizzes[quiz.topicId] == WithQuizAdded(QuizzesByTopic(st, quiz.topicId), quiz)
    ensures st'.quizzes - {quiz.topicId} == st.quizzes - {quiz.topicId}
    ensures st'.totalQuizzes == SumLengths(st'.quizzes)
    ensures Valid(st) ==> Valid(st')
  {
    var list := WithQuizAdded(QuizzesByTopic(st, quiz.topicId), quiz);
    var quizzes, total := Put(st.quizzes, quiz.topicId, list);
    st' := QuizzesState(quizzes, total);
    RewriteKeepsValid(st, st', quiz.topicId);
  }

  /** `updateQuiz(quiz)`. */
  method UpdateQuiz(st: QuizzesState, quiz: Quiz) returns (st': QuizzesState)
    ensures quiz.topicId in st'.quizzes
    ensures st'.quizzes[quiz.topicId] == WithQuizUpdated(QuizzesByTopic(st, quiz.topicId), quiz)
    ensures st'.quizzes - {quiz.topicId} == st.quizzes - {quiz.topicId}
    ensures st'.totalQuizzes == SumLengths(st'.quizzes)
    ensures Valid(st) ==> Valid(st')
  {
    var list := WithQuizUpdated(QuizzesByTopic(st, quiz.topicId), quiz);
    var quizzes, total := Put(st.quizzes, quiz.topicId, list);
    st' := QuizzesState(quizzes, total);
    RewriteKeepsValid(st, st', quiz.topicId);
  }

  /** `removeQuiz(quiz)`, stamping the deletion with `now`. */
  method RemoveQuiz(st: QuizzesState, quiz: Quiz, now: string) returns (st': QuizzesState)
    ensures quiz.topicId in st'.quizzes
    ensures st'.quizzes[quiz.topicId] == WithQuizRemoved(QuizzesByTopic(st, quiz.topicId), quiz, now)
    ensures st'.quizzes - {quiz.topicId} == st.quizzes - {quiz.topicId}
    ensures st'.totalQuizzes == SumLengths(st'.quizzes)
    ensures Valid(st) ==> Valid(st')
  {
    var list := WithQuizRemoved(QuizzesByTopic(st, quiz.topicId), quiz, now);
    var quizzes, total := Put(st.quizzes, quiz.topicId, list);
    st' := QuizzesState(quizzes, total);
    RewriteKeepsValid(st, st', quiz.topicId);
  }
}

=== FILE: seqs.dfy ===
/** The array operations the stores are built from: `filter`, `map`, and the
    order-preserving subsequence relation that describes what `filter` keeps. */
module Seqs {

  /** `s.filter(p)`. */
  function Filter<T(!new)>(s: seq<T>, p: T -> bool): (r: seq<T>)
    ensures |r| <= |s|
    ensures forall i :: 0 <= i < |r| ==> p(r[i])
    ensures forall x :: multiset(r)[x] == if p(x) then multiset(s)[x] else 0
  {
    if |s| == 0 then []
    else
      assert s == [s[0]] + s[1..];
      (if p(s[0]) then [s[0]] else []) + Filter(s[1..], p)
  }

  /** `s.map(f)`. */
  function MapSeq<T, U>(s: seq<T>, f: T -> U): (r: seq<U>)
    ensures |r| == |s|
    ensures forall i :: 0 <= i < |s| ==> r[i] == f(s[i])
  {
    if |s| == 0 then [] else [f(s[0])] + MapSeq(s[1..], f)
  }

  /** Whatever `filter` keeps was in the list. */
  lemma FilterElement<T(!new)>(s: seq<T>, p: T -> bool, j: int)
    requires 0 <= j < |Filter(s, p)|
    ensures Filter(s, p)[j] in s
  {
    assert Filter(s, p)[j] in multiset(Filter(s, p));
  }

  lemma MapSeqCons<T, U>(x: T, s: seq<T>, f: T -> U)
    ensures MapSeq([x] + s, f) == [f(x)] + MapSeq(s, f)
  {
    assert ([x] + s)[1..] == s;
  }

  /** `a` is `b` with some elements dropped and the rest kept in order. */
  ghost predicate IsSubseq<T>(a: seq<T>, b: seq<T>)
    decreases |b|
  {
    |a| == 0 || (|b| != 0 && if a[0] == b[0] then IsSubseq(a[1..], b[1..]) else IsSubseq(a, b[1..]))
  }

  lemma {:induction false} SubseqCons<T>(x: T, a: seq<T>, b: seq<T>)
    requires IsSubseq(a, b)
    ensures IsSubseq(a, [x] + b)
    decreases |b|, 1
  {
    assert ([x] + b)[1..] == b;
    if |a| != 0 && a[0] == x {
      SubseqTail(a, b);
    }
  }

  lemma {:induction false} SubseqTail<T>(a: seq<T>, b: seq<T>)
    requires |a| != 0 && IsSubseq(a, b)
    ensures IsSubseq(a[1..], b)
    decreases |b|, 0
  {
    assert b == [b[0]] + b[1..];
    if a[0] == b[0] {
      SubseqCons(b[0], a[1..], b[1..]);
    } else {
      SubseqTail(a, b[1..]);
      SubseqCons(b[0], a[1..], b[1..]);
    }
  }

  /** What `filter` keeps stays in its original order. */
  lemma {:induction false} FilterSubseq<T(!new)>(s: seq<T>, p: T -> bool)
    ensures IsSubseq(Filter(s, p), s)
  {
    if |s| != 0 {
      var rest := Filter(s[1..], p);
      FilterSubseq(s[1..], p);
      if p(s[0]) {
        assert Filter(s, p) == [s[0]] + rest;
        assert Filter(s, p)[1..] == rest;
      } else {
        assert Filter(s, p) == rest;
        SubseqCons(s[0], rest, s[1..]);
        assert [s[0]] + s[1..] == s;
      }
    }
  }

  /** Marking some elements with `f` and then filtering by `keep` is one
      filter by `both`, provided `f` changes only elements that `keep` then
      drops and `both` says which elements survive. */
  lemma {:induction false} FilterAfterMap<T(!new)>(s: seq<T>, f: T -> T, keep: T -> bool, both: T -> bool)
    requires forall x :: keep(f(x)) == both(x)
    requires forall x :: both(x) ==> f(x) == x
    ensures Filter(MapSeq(s, f), keep) == Filter(s, both)
  {
    if |s| != 0 {
      FilterAfterMap(s[1..], f, keep, both);
      assert MapSeq(s, f)[1..] == MapSeq(s[1..], f);
    }
  }

  /** Filtering again by a weaker condition changes nothing. */
  lemma {:induction false} FilterTwice<T(!new)>(s: seq<T>, p: T -> bool, q: T -> bool)
    requires forall x :: p(x) ==> q(x)
    ensures Filter(Filter(s, p), q) == Filter(s, p)
  {
    if |s| != 0 {
      var rest := Filter(s[1..], p);
      FilterTwice(s[1..], p, q);
      if p(s[0]) {
        var kept := [s[0]] + rest;
        assert Filter(s, p) == kept;
        assert kept[0] == s[0] && kept[1..] == rest;
        assert Filter(kept, q) == [s[0]] + Filter(rest, q);
      } else {
        assert Filter(s, p) == rest;
      }
    }
  }

  /** A `map` that leaves `x` alone, and turns nothing else into `x`,
      keeps the number of copies of `x`. */
  lemma {:induction false} MapSeqCount<T>(s: seq<T>, f: T -> T, x: T)
    requires f(x) == x
    requires forall y :: f(y) == x ==> y == x
    ensures multiset(MapSeq(s, f))[x] == multiset(s)[x]
  {
    if |s| != 0 {
      MapSeqCount(s[1..], f, x);
      assert s == [s[0]] + s[1..];
      assert MapSeq(s, f) == [f(s[0])] + MapSeq(s[1..], f);
    }
  }

  /** A `map` that changes no element is the identity. */
  lemma MapSeqIdentity<T>(s: seq<T>, f: T -> T)
    requires forall i :: 0 <= i < |s| ==> f(s[i]) == s[i]
    ensures MapSeq(s, f) == s
  {
  }

  /** Two lists with the same multiset hold the same elements. */
  lemma SameElements<T>(a: seq<T>, b: seq<T>)
    requires multiset(a) == multiset(b)
    ensures forall x :: x in a <==> x in b
  {
    forall x
      ensures x in a <==> x in b
    {
      assert x in a <==> x in multiset(a);
      assert x in b <==> x in multiset(b);
    }
  }
}

=== FILE: subjects_store.dfy ===
/** The in-memory list of subjects. Unlike the topic and quiz caches it is a
    single list that is neither deduplicated nor sorted: writes prepend,
    merge in place, or drop soft-deleted subjects, and order is kept. */
module SubjectsStore {
  import opened Values
  import opened Seqs

  datatype Subject = Subject(
    id: string,
    name: string,
    description: Field<Option<string>>,
    isDeleted: bool,
    createdBy: string,
    isPublic: Field<bool>,
    createdAt: Field<string>,
    updatedAt: Field<string>,
    deletedAt: Field<Option<string>>)

  /** `{ ...base, ...patch }`: every required property comes from `patch`,
      an optional one from `patch` when it carries it and from `base` otherwise. */
  function Merge(base: Subject, patch: Subject): (r: Subject)
    ensures r.id == patch.id && r.name == patch.name && r.isDeleted == patch.isDeleted && r.createdBy == patch.createdBy
    ensures Spread(r.description, base.description, patch.description)
    ensures Spread(r.isPublic, base.isPublic, patch.isPublic)
    ensures Spread(r.createdAt, base.createdAt, patch.createdAt)
    ensures Spread(r.updatedAt, base.updatedAt, patch.updatedAt)
    ensures Spread(r.deletedAt, base.deletedAt, patch.deletedAt)
  {
    Subject(
      patch.id, patch.name, Overlay(base.description, patch.description), patch.isDeleted,
      patch.createdBy, Overlay(base.isPublic, patch.isPublic), Overlay(base.createdAt, patch.createdAt),
      Overlay(base.updatedAt, patch.updatedAt), Overlay(base.deletedAt, patch.deletedAt))
  }

  /** The soft-delete mark, stamped with the time `now` (an ISO string). */
  function MarkDeleted(s: Subject, now: string): (r: Subject)
    ensures r.isDeleted && r.deletedAt == Present(Some(now))
    ensures r.(isDeleted := s.isDeleted, deletedAt := s.deletedAt) == s
  {
    s.(isDeleted := true, deletedAt := Present(Some(now)))
  }

  /** The patch carries every optional property. */
  predicate Complete(patch: Subject) {
    patch.description.Present? && patch.isPublic.Present? && patch.createdAt.Present? && patch.updatedAt.Present? && patch.deletedAt.Present?
  }

  /** A complete patch replaces the subject it is spread onto. */
  lemma MergeComplete(base: Subject, patch: Subject)
    requires Complete(patch)
    ensures Merge(base, patch) == patch
  {
  }

  /** Spreading the same patch twice is spreading it once. */
  lemma MergeIdempotent(base: Subject, patch: Subject)
    ensures Merge(Merge(base, patch), patch) == Merge(base, patch)
  {
  }

  datatype SubjectsState = SubjectsState(subjects: seq<Subject>)

  /** The store as it is created. */
  const Empty := SubjectsState([])

  /** `s => !s.is_deleted` */
  function Live(s: Subject): bool {
    !s.isDeleted
  }

  /** `s => s.id === sub.id ? { ...s, ...sub } : s` */
  function MergeMatching(patch: Subject): Subject -> Subject {
    (s: Subject) => if s.id == patch.id then Merge(s, patch) else s
  }

  /** `s => s.id === id ? { ...s, is_deleted: true, deleted_at: now } : s` */
  function MarkMatching(id: string, now: string): Subject -> Subject {
    (s: Subject) => if s.id == id then MarkDeleted(s, now) else s
  }

  /** The subjects `removeSubject` lets through: another id, and not deleted. */
  function Survives(id: string): Subject -> bool {
    (s: Subject) => s.id != id && !s.isDeleted
  }

  /** `setSubjects(list)`: the list is stored as given, duplicates and order included. */
  function SetSubjects(st: SubjectsState, list: seq<Subject>): (r: SubjectsState)
    ensures r.subjects == list
  {
    SubjectsState(list)
  }

  /** `addSubject(sub)`: prepends, even when a subject with the same id is present. */
  function AddSubject(st: SubjectsState, sub: Subject): (r: SubjectsState)
    ensures |r.subjects| == |st.subjects| + 1
    ensures r.subjects[0] == sub && r.subjects[1..] == st.subjects
  {
    SubjectsState([sub] + st.subjects)
  }

  /** `updateSubject(sub)`: merges `sub` into every subject with its id, in place. */
  function UpdateSubject(st: SubjectsState, sub: Subject): (r: SubjectsState)
    ensures |r.subjects| == |st.subjects|
    ensures forall i :: 0 <= i < |st.subjects| ==> r.subjects[i].id == st.subjects[i].id
    ensures forall i :: 0 <= i < |st.subjects| && st.subjects[i].id != sub.id ==> r.subjects[i] == st.subjects[i]
    ensures forall i :: 0 <= i < |st.subjects| && st.subjects[i].id == sub.id ==>
              r.subjects[i] == Merge(st.subjects[i], sub)
  {
    SubjectsState(MapSeq(st.subjects, MergeMatching(sub)))
  }

  /** `removeSubject(id)`, stamping the deletion with `now`: the subject is
      marked deleted, then every deleted subject leaves the list. */
  function RemoveSubject(st: SubjectsState, id: string, now: string): (r: SubjectsState)
    ensures IsSubseq(r.subjects, st.subjects)
    ensures forall i :: 0 <= i < |r.subjects| ==> r.subjects[i].id != id && !r.subjects[i].isDeleted
    ensures forall x :: multiset(r.subjects)[x] == if x.id != id && !x.isDeleted then multiset(st.subjects)[x] else 0
  {
    var r := Filter(MapSeq(st.subjects, MarkMatching(id, now)), Live);
    RemovedIsFilter(st.subjects, id, now);
    RemovedSpec(st.subjects, id, r);
    SubjectsState(r)
  }

  lemma RemovedSpec(subjects: seq<Subject>, id: string, r: seq<Subject>)
    requires r == Filter(subjects, Survives(id))
    ensures IsSubseq(r, subjects)
    ensures forall i :: 0 <= i < |r| ==> r[i].id != id && !r[i].isDeleted
    ensures forall x :: multiset(r)[x] == if x.id != id && !x.isDeleted then multiset(subjects)[x] else 0
  {
    FilterSubseq(subjects, Survives(id));
    forall i | 0 <= i < |r|
      ensures r[i].id != id && !r[i].isDeleted
    {
      assert Survives(id)(r[i]);
    }
  }

  /** `activeSubjects()`: the subjects not deleted, in order; the state is not changed. */
  function ActiveSubjects(st: SubjectsState): (r: seq<Subject>)
    ensures IsSubseq(r, st.subjects)
    ensures forall i :: 0 <= i < |r| ==> !r[i].isDeleted
    ensures forall x :: multiset(r)[x] == if x.isDeleted then 0 else multiset(st.subjects)[x]
  {
    FilterSubseq(st.subjects, Live);
    Filter(st.subjects, Live)
  }

  /** Marking one id deleted and dropping deleted subjects is one filter. */
  lemma RemovedIsFilter(subjects: seq<Subject>, id: string, now: string)
    ensures Filter(MapSeq(subjects, MarkMatching(id, now)), Live) == Filter(subjects, Survives(id))
  {
    FilterAfterMap(subjects, MarkMatching(id, now), Live, Survives(id));
  }

  /** The deletion time never reaches the store. */
  lemma RemoveIgnoresClock(st: SubjectsState, id: string, now1: string, now2: string)
    ensures RemoveSubject(st, id, now1) == RemoveSubject(st, id, now2)
  {
    RemovedIsFilter(st.subjects, id, now1);
    RemovedIsFilter(st.subjects, id, now2);
  }

  /** Right after `removeSubject`, every stored subject is active. */
  lemma ActiveAfterRemove(st: SubjectsState, id: string, now: string)
    ensures ActiveSubjects(RemoveSubject(st, id, now)) == RemoveSubject(st, id, now).subjects
  {
    RemovedIsFilter(st.subjects, id, now);
    FilterTwice(st.subjects, Survives(id), Live);
  }

  /** Removing a subject just added removes every copy of its id, so it is
      as if it had never been added. */
  lemma RemoveUndoesAdd(st: SubjectsState, sub: Subject, now: string)
    ensures RemoveSubject(AddSubject(st, sub), sub.id, now) == RemoveSubject(st, sub.id, now)
  {
    var added := AddSubject(st, sub).subjects;
    RemovedIsFilter(added, sub.id, now);
    RemovedIsFilter(st.subjects, sub.id, now);
    assert added[1..] == st.subjects;
  }

  /** Applying the same update twice is applying it once. */
  lemma UpdateIdempotent(st: SubjectsState, sub: Subject)
    ensures UpdateSubject(UpdateSubject(st, sub), sub) == UpdateSubject(st, sub)
  {
    var once := UpdateSubject(st, sub).subjects;
    var twice := UpdateSubject(UpdateSubject(st, sub), sub).subjects;
    assert |twice| == |once|;
    forall i | 0 <= i < |once|
      ensures twice[i] == once[i]
    {
      if st.subjects[i].id == sub.id {
        assert once[i] == Merge(st.subjects[i], sub);
      }
    }
  }
}

=== FILE: topics_store.dfy ===
/** The in-memory cache of topics, keyed by subject id. Every single-key
    write rewrites only that subject's key and recounts all cached topics;
    `SetTopics` keeps the first item per id and sorts by name, while the add,
    update and remove writes only sort, keeping ids distinct when they already
    were. `ClearTopics` and `SetAllTopics` replace the whole map. */
module TopicsStore {
  import opened Values
  import opened Seqs
  import opened Normalisation
  import opened Keyed

  datatype Topic = Topic(
    id: string,
    name: string,
    description: Field<Option<string>>,
    isDeleted: bool,
    createdBy: string,
    subjectId: string,
    isPublic: Field<bool>,
    createdAt: Field<string>,
    updatedAt: Field<string>,
    deletedAt: Field<Option<string>>)

  function IdOf(t: Topic): string { t.id }

  function NameOf(t: Topic): string { t.name }

  /** `{ ...base, ...patch }`: every required property comes from `patch`,
      an optional one from `patch` when it carries it and from `base` otherwise. */
  function Merge(base: Topic, patch: Topic): (r: Topic)
    ensures r.id == patch.id && r.name == patch.name && r.isDeleted == patch.isDeleted && r.createdBy == patch.createdBy && r.subjectId == patch.subjectId
    ensures Spread(r.description, base.description, patch.description)
    ensures Spread(r.isPublic, base.isPublic, patch.isPublic)
    ensures Spread(r.createdAt, base.createdAt, patch.createdAt)
    ensures Spread(r.updatedAt, base.updatedAt, patch.updatedAt)
    ensures Spread(r.deletedAt, base.deletedAt, patch.deletedAt)
  {
    Topic(
      patch.id, patch.name, Overlay(base.description, patch.description), patch.isDeleted,
      patch.createdBy, patch.subjectId, Overlay(base.isPublic, patch.isPublic),
      Overlay(base.createdAt, patch.createdAt), Overlay(base.updatedAt, patch.updatedAt),
      Overlay(base.deletedAt, patch.deletedAt))
  }

  /** The soft-delete mark, stamped with the time `now` (an ISO string). */
  function MarkDeleted(t: Topic, now: string): (r: Topic)
    ensures r.isDeleted && r.deletedAt == Present(Some(now))
    ensures r.(isDeleted := t.isDeleted, deletedAt := t.deletedAt) == t
  {
    t.(isDeleted := true, deletedAt := Present(Some(now)))
  }

  /** The patch carries every optional property. */
  predicate Complete(patch: Topic) {
    patch.description.Present? && patch.isPublic.Present? && patch.createdAt.Present? && patch.updatedAt.Present? && patch.deletedAt.Present?
  }

  /** A complete patch replaces the topic it is spread onto. */
  lemma MergeComplete(base: Topic, patch: Topic)
    requires Complete(patch)
    ensures Merge(base, patch) == patch
  {
  }

  /** Spreading the same patch twice is spreading it once. */
  lemma MergeIdempotent(base: Topic, patch: Topic)
    ensures Merge(Merge(base, patch), patch) == Merge(base, patch)
  {
  }

  datatype TopicsState = TopicsState(topics: map<string, seq<Topic>>, totalTopics: nat)

  /** The store as it is created: no subjects cached, no topics counted. */
  const Empty := TopicsState(map[], 0)

  ghost predicate Normalised(list: seq<Topic>) {
    SortedBy(list, NameOf) && DistinctIds(list, IdOf)
  }

  /** What every write keeps: the count is the number of cached topics, and
      every cached list is sorted by name with distinct ids. */
  ghost predicate Valid(st: TopicsState) {
    && st.totalTopics == SumLengths(st.topics)
    && forall k :: k in st.topics ==> Normalised(st.topics[k])
  }

  /** `sortByName`. */
  function SortByName(list: seq<Topic>): (r: seq<Topic>)
    ensures SortedBy(r, NameOf)
    ensures multiset(r) == multiset(list)
  {
    SortBySorted(list, NameOf);
    SortBy(list, NameOf)
  }

  /** The list `setTopics` and `setAllTopics` store for one subject. */
  function NormaliseTopics(list: seq<Topic>): (r: seq<Topic>)
    ensures NormalisedFrom(r, list, IdOf, NameOf)
  {
    Normalise(list, IdOf, NameOf)
  }

  /** `t => t.id !== id` */
  function OtherThan(id: string): Topic -> bool {
    (t: Topic) => t.id != id
  }

  /** `t => !t.is_deleted` */
  function Live(t: Topic): bool {
    !t.isDeleted
  }

  /** `t => t.id === patch.id ? { ...t, ...patch } : t` */
  function MergeMatching(patch: Topic): Topic -> Topic {
    (t: Topic) => if t.id == patch.id then Merge(t, patch) else t
  }

  /** `t => t.id === id ? { ...t, is_deleted: true, deleted_at: now } : t` */
  function MarkMatching(id: string, now: string): Topic -> Topic {
    (t: Topic) => if t.id == id then MarkDeleted(t, now) else t
  }

  /** The topics `removeTopic` lets through: another id, and not deleted. */
  function Survives(id: string): Topic -> bool {
    (t: Topic) => t.id != id && !t.isDeleted
  }

  /** The list `addTopic` stores: `topic` replaces every item with its id. */
  function WithTopicAdded(existing: seq<Topic>, topic: Topic): (r: seq<Topic>)
    ensures SortedBy(r, NameOf)
    ensures multiset(r)[topic] == 1
    ensures forall x :: x in r && x.id == topic.id ==> x == topic
    ensures forall x: Topic :: x.id != topic.id ==> multiset(r)[x] == multiset(existing)[x]
    ensures DistinctIds(existing, IdOf) ==> DistinctIds(r, IdOf)
  {
    var others := Filter(existing, OtherThan(topic.id));
    var r := SortByName([topic] + others);
    AddedHoldsTopicOnce(existing, topic, others, r);
    AddedKeepsOthers(existing, topic, others, r);
    AddedKeepsDistinct(existing, topic, others, r);
    r
  }

  lemma AddedHoldsTopicOnce(existing: seq<Topic>, topic: Topic, others: seq<Topic>, r: seq<Topic>)
    requires others == Filter(existing, OtherThan(topic.id))
    requires r == SortByName([topic] + others)
    ensures multiset(r)[topic] == 1
    ensures forall x :: x in r && x.id == topic.id ==> x == topic
  {
    assert multiset(r) == multiset{topic} + multiset(others);
    forall x | x in r && x.id == topic.id
      ensures x == topic
    {
      assert x in multiset(r);
      assert multiset(others)[x] == 0;
    }
  }

  lemma AddedKeepsOthers(existing: seq<Topic>, topic: Topic, others: seq<Topic>, r: seq<Topic>)
    requires others == Filter(existing, OtherThan(topic.id))
    requires r == SortByName([topic] + others)
    ensures forall x: Topic :: x.id != topic.id ==> multiset(r)[x] == multiset(existing)[x]
  {
    assert multiset(r) == multiset{topic} + multiset(others);
  }

  lemma AddedKeepsDistinct(existing: seq<Topic>, topic: Topic, others: seq<Topic>, r: seq<Topic>)
    requires others == Filter(existing, OtherThan(topic.id))
    requires r == SortByName([topic] + others)
    ensures DistinctIds(existing, IdOf) ==> DistinctIds(r, IdOf)
  {
    var list := [topic] + others;
    if DistinctIds(existing, IdOf) {
      FilterKeepsDistinct(existing, OtherThan(topic.id), IdOf);
      assert DistinctIds(list, IdOf) by {
        forall j | 0 < j < |list|
          ensures list[0].id != list[j].id
        {
          assert list[j] == others[j - 1];
        }
      }
      SortByDistinct(list, IdOf, NameOf);
    }
  }

  /** The list `updateTopic` stores: every item with `topic.id` is merged with
      `topic`, then the list is sorted by name again. */
  function WithTopicUpdated(existing: seq<Topic>, topic: Topic): (r: seq<Topic>)
    ensures |r| == |existing|
    ensures SortedBy(r, NameOf)
    ensures multiset(MapSeq(r, IdOf)) == multiset(MapSeq(existing, IdOf))
    ensures forall x: Topic :: x.id != topic.id ==> multiset(r)[x] == multiset(existing)[x]
    ensures forall x :: x in r && x.id == topic.id ==>
              exists e :: e in existing && e.id == topic.id && x == Merge(e, topic)
    ensures (forall e :: e in existing ==> e.id != topic.id) ==> r == SortByName(existing)
    ensures DistinctIds(existing, IdOf) ==> DistinctIds(r, IdOf)
  {
    var mapped := MapSeq(existing, MergeMatching(topic));
    var r := SortByName(mapped);
    UpdatedKeepsIds(existing, topic, mapped, r);
    UpdatedKeepsOthers(existing, topic, mapped, r);
    UpdatedMergesMatches(existing, topic, mapped, r);
    UpdatedWithoutMatch(existing, topic, mapped, r);
    r
  }

  lemma UpdatedKeepsIds(existing: seq<Topic>, topic: Topic, mapped: seq<Topic>, r: seq<Topic>)
    requires mapped == MapSeq(existing, MergeMatching(topic))
    requires r == SortByName(mapped)
    ensures multiset(MapSeq(r, IdOf)) == multiset(MapSeq(existing, IdOf))
    ensures DistinctIds(existing, IdOf) ==> DistinctIds(r, IdOf)
  {
    forall i | 0 <= i < |existing|
      ensures MapSeq(mapped, IdOf)[i] == MapSeq(existing, IdOf)[i]
    {
      assert mapped[i] == MergeMatching(topic)(existing[i]);
    }
    assert MapSeq(mapped, IdOf) == MapSeq(existing, IdOf);
    SortByProjection(mapped, NameOf, IdOf);
    if DistinctIds(existing, IdOf) {
      SameIdsDistinct(mapped, existing, IdOf);
      SortByDistinct(mapped, IdOf, NameOf);
    }
  }

  lemma UpdatedKeepsOthers(existing: seq<Topic>, topic: Topic, mapped: seq<Topic>, r: seq<Topic>)
    requires mapped == MapSeq(existing, MergeMatching(topic))
    requires r == SortByName(mapped)
    ensures forall x: Topic :: x.id != topic.id ==> multiset(r)[x] == multiset(existing)[x]
  {
    forall x: Topic | x.id != topic.id
      ensures multiset(r)[x] == multiset(existing)[x]
    {
      MapSeqCount(existing, MergeMatching(topic), x);
    }
  }

  lemma UpdatedMergesMatches(existing: seq<Topic>, topic: Topic, mapped: seq<Topic>, r: seq<Topic>)
    requires mapped == MapSeq(existing, MergeMatching(topic))
    requires r == SortByName(mapped)
    ensures forall x :: x in r && x.id == topic.id ==>
              exists e :: e in existing && e.id == topic.id && x == Merge(e, topic)
  {
    forall x | x in r && x.id == topic.id
      ensures exists e :: e in existing && e.id == topic.id && x == Merge(e, topic)
    {
      assert x in multiset(r);
      assert x in mapped;
      var i :| 0 <= i < |mapped| && mapped[i] == x;
      assert existing[i] in existing;
    }
  }

  lemma UpdatedWithoutMatch(existing: seq<Topic>, topic: Topic, mapped: seq<Topic>, r: seq<Topic>)
    requires mapped == MapSeq(existing, MergeMatching(topic))
    requires r == SortByName(mapped)
    ensures (forall e :: e in existing ==> e.id != topic.id) ==> r == SortByName(existing)
  {
    if forall e :: e in existing ==> e.id != topic.id {
      MapSeqIdentity(existing, MergeMatching(topic));
    }
  }

  /** The list `removeTopic` stores: the item with `topic.id` is marked deleted
      at `now`, every deleted item is dropped, and the rest sorted by name. */
  function WithTopicRemoved(existing: seq<Topic>, topic: Topic, now: string): (r: seq<Topic>)
    ensures SortedBy(r, NameOf)
    ensures forall x :: multiset(r)[x] == if x.id != topic.id && !x.isDeleted then multiset(existing)[x] else 0
    ensures forall x :: x in r ==> x.id != topic.id && !x.isDeleted
    ensures DistinctIds(existing, IdOf) ==> DistinctIds(r, IdOf)
  {
    var kept := Filter(MapSeq(existing, MarkMatching(topic.id, now)), Live);
    RemovedIsFilter(existing, topic, now);
    var r := SortByName(kept);
    RemovedSpec(existing, topic, kept, r);
    r
  }

  /** Marking one id deleted and dropping deleted topics is one filter. */
  lemma RemovedIsFilter(existing: seq<Topic>, topic: Topic, now: string)
    ensures Filter(MapSeq(existing, MarkMatching(topic.id, now)), Live) == Filter(existing, Survives(topic.id))
  {
    FilterAfterMap(existing, MarkMatching(topic.id, now), Live, Survives(topic.id));
  }

  lemma RemovedSpec(existing: seq<Topic>, topic: Topic, kept: seq<Topic>, r: seq<Topic>)
    requires kept == Filter(existing, Survives(topic.id))
    requires r == SortByName(kept)
    ensures forall x :: multiset(r)[x] == if x.id != topic.id && !x.isDeleted then multiset(existing)[x] else 0
    ensures forall x :: x in r ==> x.id != topic.id && !x.isDeleted
    ensures DistinctIds(existing, IdOf) ==> DistinctIds(r, IdOf)
  {
    assert multiset(r) == multiset(kept);
    forall x
      ensures multiset(r)[x] == if x.id != topic.id && !x.isDeleted then multiset(existing)[x] else 0
    {
      assert multiset(kept)[x] == if Survives(topic.id)(x) then multiset(existing)[x] else 0;
    }
    forall x | x in r
      ensures x.id != topic.id && !x.isDeleted
    {
      assert x in multiset(r);
      assert multiset(kept)[x] > 0;
    }
    RemovedKeepsDistinct(existing, topic, kept, r);
  }

  lemma RemovedKeepsDistinct(existing: seq<Topic>, topic: Topic, kept: seq<Topic>, r: seq<Topic>)
    requires kept == Filter(existing, Survives(topic.id))
    requires r == SortByName(kept)
    ensures DistinctIds(existing, IdOf) ==> DistinctIds(r, IdOf)
  {
    if DistinctIds(existing, IdOf) {
      FilterKeepsDistinct(existing, Survives(topic.id), IdOf);
      SortByDistinct(kept, IdOf, NameOf);
    }
  }

  /** The deletion time stamped on the removed topic never reaches the cache. */
  lemma RemovedIgnoresClock(existing: seq<Topic>, topic: Topic, now1: string, now2: string)
    ensures WithTopicRemoved(existing, topic, now1) == WithTopicRemoved(existing, topic, now2)
  {
    RemovedIsFilter(existing, topic, now1);
    RemovedIsFilter(existing, topic, now2);
  }

  /** A write that rewrites one subject's list and recounts keeps the store
      valid when the list it writes is normalised. */
  lemma RewriteKeepsValid(st: TopicsState, st': TopicsState, subjectId: string)
    requires subjectId in st'.topics
    requires st'.topics - {subjectId} == st.topics - {subjectId}
    requires st'.totalTopics == SumLengths(st'.topics)
    requires Valid(st) ==> Normalised(st'.topics[subjectId])
    ensures Valid(st) ==> Valid(st')
  {
    if Valid(st) {
      forall k | k in st'.topics
        ensures Normalised(st'.topics[k])
      {
        if k != subjectId {
          assert k in st'.topics - {subjectId};
          assert k in st.topics - {subjectId};
          assert st'.topics[k] == (st'.topics - {subjectId})[k];
        }
      }
    }
  }

  /** Storing again a list the store already holds changes nothing. */
  lemma NormaliseCachedList(st: TopicsState, subjectId: string)
    requires Valid(st) && subjectId in st.topics
    ensures NormaliseTopics(st.topics[subjectId]) == st.topics[subjectId]
  {
    NormaliseOfNormalised(st.topics[subjectId], IdOf, NameOf);
  }

  /** In a valid store, an update whose id matches no cached topic leaves the
      subject's list as it was. */
  lemma UpdateWithoutMatchIsIdentity(st: TopicsState, topic: Topic)
    requires Valid(st)
    requires forall e :: e in TopicsBySubject(st, topic.subjectId) ==> e.id != topic.id
    ensures WithTopicUpdated(TopicsBySubject(st, topic.subjectId), topic) == TopicsBySubject(st, topic.subjectId)
  {
    SortByOfSorted(TopicsBySubject(st, topic.subjectId), NameOf);
  }

  /** `clearTopics`. */
  function ClearTopics(st: TopicsState): (r: TopicsState)
    ensures r.topics == map[] && r.totalTopics == 0
    ensures Valid(r)
    ensures forall k :: TopicsBySubject(r, k) == []
  {
    Empty
  }

  /** `topicsBySubject`. */
  function TopicsBySubject(st: TopicsState, subjectId: string): (r: seq<Topic>)
    ensures subjectId !in st.topics ==> r == []
    ensures subjectId in st.topics ==> r == st.topics[subjectId]
    ensures Valid(st) ==> Normalised(r)
  {
    Lookup(st.topics, subjectId)
  }

  /** `setTopics(subjectId, list)`. */
  method SetTopics(st: TopicsState, subjectId: string, list: seq<Topic>) returns (st': TopicsState)
    ensures subjectId in st'.topics && NormalisedFrom(st'.topics[subjectId], list, IdOf, NameOf)
    ensures st'.topics - {subjectId} == st.topics - {subjectId}
    ensures st'.totalTopics == SumLengths(st'.topics)
    ensures Valid(st) ==> Valid(st')
  {
    var topics, total := Put(st.topics, subjectId, NormaliseTopics(list));
    st' := TopicsState(topics, total);
    RewriteKeepsValid(st, st', subjectId);
  }

  /** `setAllTopics(map)`: the whole cache is replaced. */
  method SetAllTopics(st: TopicsState, all: map<string, seq<Topic>>) returns (st': TopicsState)
    ensures st'.topics.Keys == all.Keys
    ensures forall k :: k in all ==> NormalisedFrom(st'.topics[k], all[k], IdOf, NameOf)
    ensures Valid(st')
  {
    var normalised := map k | k in all :: NormaliseTopics(all[k]);
    var total := FlatLength(normalised);
    st' := TopicsState(normalised, total);
  }

  /** `addTopic(topic)`. */
  method AddTopic(st: TopicsState, topic: Topic) returns (st': TopicsState)
    ensures topic.subjectId in st'.topics
    ensures st'.topics[topic.subjectId] == WithTopicAdded(TopicsBySubject(st, topic.subjectId), topic)
    ensures st'.topics - {topic.subjectId} == st.topics - {topic.subjectId}
    ensures st'.totalTopics == SumLengths(st'.topics)
    ensures Valid(st) ==> Valid(st')
  {
    var list := WithTopicAdded(TopicsBySubject(st, topic.subjectId), topic);
    var topics, total := Put(st.topics, topic.subjectId, list);
    st' := TopicsState(topics, total);
    RewriteKeepsValid(st, st', topic.subjectId);
  }

  /** `updateTopic(topic)`. */
  method UpdateTopic(st: TopicsState, topic: Topic) returns (st': TopicsState)
    ensures topic.subjectId in st'.topics
    ensures st'.topics[topic.subjectId] == WithTopicUpdated(TopicsBySubject(st, topic.subjectId), topic)
    ensures st'.topics - {topic.subjectId} == st.topics - {topic.subjectId}
    ensures st'.totalTopics == SumLengths(st'.topics)
    ensures Valid(st) ==> Valid(st')
  {
    var list := WithTopicUpdated(TopicsBySubject(st, topic.subjectId), topic);
    var topics, total := Put(st.topics, topic.subjectId, list);
    st' := TopicsState(topics, total);
    RewriteKeepsValid(st, st', topic.subjectId);
  }

  /** `removeTopic(topic)`, stamping the deletion with `now`. */
  method RemoveTopic(st: TopicsState, topic: Topic, now: string) returns (st': TopicsState)
    ensures topic.subjectId in st'.topics
    ensures st'.topics[topic.subjectId] == WithTopicRemoved(TopicsBySubject(st, topic.subjectId), topic, now)
    ensures st'.topics - {topic.subjectId} == st.topics - {topic.subjectId}
    ensures st'.totalTopics == SumLengths(st'.topics)
    ensures Valid(st) ==> Valid(st')
  {
    var list := WithTopicRemoved(TopicsBySubject(st, topic.subjectId), topic, now);
    var topics, total := Put(st.topics, topic.subjectId, list);
    st' := TopicsState(topics, total);
    RewriteKeepsValid(st, st', topic.subjectId);
  }
}

=== FILE: values.dfy ===
/** Small value types shared by the stores: nullable values and optional object properties. */
module Values {

  /** A value that may be `null`. */
  datatype Option<+T> = None | Some(value: T) {

    /** `x || fallback` for a nullable `x` whose present values are all truthy.
        It also stands for `x || fallback` when the one falsy present value
        equals the fallback, as `count || 0` does for a count of 0. */
    function GetOr(fallback: T): T {
      match this
      case Some(v) => v
      case None => fallback
    }
  }

  /** A property that an object literal may or may not carry (`prop?: T`).
      Spreading an object copies only the properties it carries. */
  datatype Field<+T> = Absent | Present(value: T)

  /** `r` is the property of `{ ...base, ...patch }`: `patch`'s when it
      carries it, `base`'s otherwise. */
  predicate Spread<T(==)>(r: Field<T>, base: Field<T>, patch: Field<T>) {
    (patch.Present? ==> r == patch) && (patch.Absent? ==> r == base)
  }

  /** The value of one property in `{ ...base, ...patch }`. */
  function Overlay<T(==)>(base: Field<T>, patch: Field<T>): (r: Field<T>)
    ensures Spread(r, base, patch)
  {
    if patch.Present? then patch else base
  }
}
